=== FILE: README.md ===
# Shammah wellness client — a Dafny model of its client-side rules

Shammah is a React client for a remote wellness store. The store keeps a user's
profile, with its journal, mindfulness activities, wellness pillars, badges,
rewards and quiz responses. It also keeps debts with payment ledgers, and medications
with adherence logs. The client holds no engine of its own. Its logic is a set of small
rules inside its pages:

- the guards and request builders behind each form;
- the debt ledger arithmetic over integer cents;
- the activity scoring rule;
- totals, means and "last N, newest first" lists;
- the badge partition and the premium tiers;
- the onboarding and quiz state machines;
- the top-level screen choice and the dashboard's page dispatch;
- the build marker.

This project restates those rules as pure Dafny functions over immutable datatypes
and proves what they promise.

Conventions used throughout:

- **Handlers that await a remote call.** A handler becomes a function of the component
  state and a flag `callSucceeds`. It returns `Handled(request, state)`. `request` is
  the call the handler makes, or `None` when its guard refuses. `state` is the
  component state afterwards. The updates the source makes after the `await` happen
  only when `callSucceeds` holds; a rejected call throws past them.
- **Form fields that get parsed.** Fields the source tests for emptiness and then
  parses to a number are `Option<int>`. `None` is the empty field; `Some` holds the
  parsed value, already scaled to cents or milliseconds.
- **Exact arithmetic.** `Number` division is exact `real` arithmetic. `Math.round` of a
  ratio is the integer formula `Numbers.RoundDiv`. JavaScript's `trim` uses the full
  ECMAScript white-space set (`Text.Trim`). Truthiness is written out: `""`, a missing
  value and `0n` are false.
- **Time.** Clocks become parameters (`nowMs`). Timestamps are nanoseconds, as the
  store keeps them.

Modules: `Wrappers`, `Text`, `Numbers`, `Views` and `Domain` are shared helpers and
the store's record shapes. `Debts`, `PillarActivity`, `Mindfulness`, `Overview`,
`Rewards`, `Medications`, `Journal`, `Onboarding`, `Quiz`, `App`, `Dashboard` and
`BuildMarker` each follow one source file. `Questionnaire` holds the five quiz
questions, which the onboarding flow and the quiz page both carry.

Where the code does not enforce what its UI evidently intends, the model follows the code:

- A debt payment is meant to be positive, but the payment dialog never checks its
  sign. A negative amount goes through and raises the balance
  (`Debts.NegativePaymentRaisesBalance`). The ledger's monotonicity is therefore
  proved under a non-negative-payments hypothesis.
- A debt's amount is meant to be positive, but the add-debt form only checks that
  the field is not empty. A negative amount is stored as it is
  (`Debts.NegativeDebtAccepted`), and the ledger lemmas are stated for every amount.
- Editing a medication sends `endDate || null`. A stored end date of `0n` is falsy,
  so it is dropped (`Medications.KeptEndDate`).
- The overview averages over however many pillars the profile holds, not a fixed
  seven.
- Badges are awarded by the store, not by the client. Only the client's display of
  badges is modelled.

## Model

| member | source | states |
|---|---|---|
| Text.TrimStart | src/frontend/src/pages/dashboard/PillarPage.tsx:38 | the result is a suffix of the input that does not start with white space, and everything dropped is white space |
| Text.TrimEnd | src/frontend/src/pages/dashboard/PillarPage.tsx:38 | the result is a prefix of the input that does not end with white space, and everything dropped is white space |
| Text.TrimEmptyIffBlank | src/frontend/src/pages/dashboard/JournalPage.tsx:16 | `trim()` yields the empty string exactly when every character is ECMAScript white space, so `!s.trim()` means "blank" |
| Text.TrimEndsClean | src/frontend/src/pages/dashboard/PillarPage.tsx:41 | what `trim()` leaves neither starts nor ends with white space |
| Text.TrimIsSlice | src/frontend/src/pages/dashboard/PillarPage.tsx:41 | what `trim()` leaves is the contiguous piece of the original that follows the leading white space |
| Text.NatToString | src/frontend/src/utils/buildMarker.ts:22 | the decimal rendering of a number is a non-empty digit string with no leading zero unless the number is 0 |
| Text.ParseNatToString | src/frontend/src/utils/buildMarker.ts:22 | reading the decimal rendering back gives the original number |
| Numbers.RoundDiv | src/frontend/src/pages/dashboard/MindfulnessPage.tsx:149 | `Math.round(n / d)` is the integer r with 2dr − d ≤ 2n < 2dr + d |
| Numbers.RoundDivNearest | src/frontend/src/pages/dashboard/OverviewPage.tsx:31 | the rounded value lies within one half of the exact quotient, ties going up |
| Numbers.RoundDivUnique | src/frontend/src/pages/dashboard/QuizPage.tsx:133 | any integer within one half of the quotient is the rounded value |
| Numbers.RoundDivBetween | src/frontend/src/pages/dashboard/MindfulnessPage.tsx:148-150 | rounding a quotient that lies between two integers stays between them |
| Views.Reverse | src/frontend/src/pages/dashboard/JournalPage.tsx:93 | `slice().reverse()` keeps the length and puts item i at position n−1−i |
| Views.ReverseReverse | src/frontend/src/pages/dashboard/MindfulnessPage.tsx:184 | reversing twice gives the list back |
| Views.ReversePermutes | src/frontend/src/pages/dashboard/MindfulnessPage.tsx:184 | the reversed list holds the same items, each as often |
| Views.Recent | src/frontend/src/components/DebtManagement.tsx:299 | `slice(-n).reverse()` holds the last min(n, len) items, newest first |
| Views.RecentIsHeadOfReverse | src/frontend/src/pages/dashboard/OverviewPage.tsx:73 | the last n items newest first are the first n of the whole list reversed |
| Views.Filter | src/frontend/src/pages/dashboard/RewardsPage.tsx:12-13 | `filter` keeps exactly the items that satisfy the predicate |
| Views.FilterKeepsOrder | src/frontend/src/pages/dashboard/RewardsPage.tsx:12-13 | the filtered list is a subsequence of the original, so order is preserved |
| Views.FilterPartition | src/frontend/src/pages/dashboard/RewardsPage.tsx:48-49 | filtering by a predicate and by its negation splits the list: the multisets add up and so do the lengths |
| Views.Find | src/frontend/src/components/DebtManagement.tsx:65-66 | `find` returns the first item satisfying the predicate, and nothing exactly when no item does |
| Views.FindFirst | src/frontend/src/pages/dashboard/PillarPage.tsx:34 | when item i is the first match, `find` returns it |
| Views.SumAppend | src/frontend/src/components/DebtManagement.tsx:90 | the `reduce` sum over a list with one more item grows by that item's value |
| Views.SumBounds | src/frontend/src/pages/dashboard/OverviewPage.tsx:12 | a sum of n values each in [lo, hi] lies in [n·lo, n·hi] |
| Views.SumNonNegative | src/frontend/src/components/DebtManagement.tsx:111-113 | a sum of non-negative values is non-negative |
| Views.SumDifference | src/frontend/src/components/DebtManagement.tsx:111-113 | the sum of differences is the difference of the sums |
| Views.SumCongruent | src/frontend/src/components/DebtManagement.tsx:111-113 | sums of two functions that agree on every item are equal |
| Debts.ClampedBalance | src/frontend/src/components/DebtManagement.tsx:72-79 | a new payment's remaining balance is the balance minus the amount, floored at 0: never negative and never below the difference |
| Debts.BalanceAtPrefix | src/frontend/src/components/DebtManagement.tsx:68-79 | over a well-formed ledger with non-negative payments, the balance before payment k is the amount for k = 0 and max(0, amount − total paid in the first k payments) afterwards, whatever the sign of the amount |
| Debts.LedgerReplay | src/frontend/src/components/DebtManagement.tsx:95-98 | the current balance (last entry, or the amount with no payments) is max(0, amount − total paid) once a payment exists, and always for a non-negative amount; the recorded balances never rise and never go negative |
| Debts.NonIncreasing | src/frontend/src/components/DebtManagement.tsx:69-79 | in a well-formed ledger of non-negative payments, a later entry's balance is at most an earlier one's, and at least 0, for any amount |
| Debts.AddDebt | src/frontend/src/components/DebtManagement.tsx:33-49 | refused exactly when the creditor or the amount is empty; otherwise an active debt with no payments carrying the typed creditor, amount, interest rate (0 when empty) and due date (now when empty); the form resets only after success |
| Debts.NewDebtStartsLedger | src/frontend/src/components/DebtManagement.tsx:38-45 | a created debt starts a well-formed ledger whose balance is the whole amount and whose progress is 0 |
| Debts.OpenPaymentDialog | src/frontend/src/components/DebtManagement.tsx:57-60 | opening the dialog selects the debt and opens the dialog, keeping the typed amount |
| Debts.AddPayment | src/frontend/src/components/DebtManagement.tsx:62-86 | refused exactly when no debt is selected, the amount is empty or no debt has the id; otherwise the payment carries the amount, the time and the first matching debt's balance less the amount, floored at 0; the dialog resets only after success |
| Debts.PaymentExtendsLedger | src/frontend/src/components/DebtManagement.tsx:65-81 | appending the built payment to its debt keeps the ledger well-formed and makes that entry the current balance |
| Debts.NegativePaymentRaisesBalance | src/frontend/src/components/DebtManagement.tsx:63-72 | a negative amount passes the guard: paying −100.00 on a 500.00 debt records a balance of 600.00 |
| Debts.Progress | src/frontend/src/components/DebtManagement.tsx:88-93 | progress is 0 with no payments; otherwise it is either the cap of 100 or exactly 100 · total paid / amount, never above 100, and 100 exactly when total paid / amount reaches 1 |
| Debts.ProgressBounds | src/frontend/src/components/DebtManagement.tsx:88-93 | with non-negative payments and a positive amount, progress lies in [0, 100] and is 100 exactly when the total paid reaches the amount |
| Debts.ProgressAgreesWithBalance | src/frontend/src/components/DebtManagement.tsx:242-283 | on a well-formed ledger, "Paid Off" shows exactly when the balance is 0, and "Record Payment" is offered exactly while a balance remains |
| Debts.FiveThousandDollarExample | src/frontend/src/components/DebtManagement.tsx:62-98 | a 5,000.00 debt paid 1,000.00 has balance 4,000.00 and progress 20; a further 4,500.00 clamps the balance to 0 and progress to 100 |
| Debts.ChartData | src/frontend/src/components/DebtManagement.tsx:100-109 | the chart has one point more than there are payments: the original amount first, then each payment's remaining balance, in dollars, ending at the current balance |
| Debts.RecentPayments | src/frontend/src/components/DebtManagement.tsx:299 | the payments list shows the last min(3, n) payments, newest first |
| Debts.SummaryPaidIsPaidDown | src/frontend/src/components/DebtManagement.tsx:111-113 | over well-formed ledgers of non-negative payments, "Total Paid" (the original total minus the current balances) is the sum of what each debt was paid down: nothing before its first payment, the total paid capped at its amount afterwards |
| Debts.SummaryPaidBounds | src/frontend/src/components/DebtManagement.tsx:111-113 | with non-negative amounts as well, "Total Paid" lies between 0 and the original total |
| Debts.NegativeDebtAccepted | src/frontend/src/components/DebtManagement.tsx:33-45 | the add-debt guard lets a −500.00 debt through; it is stored owing −500.00, a 100.00 payment raises its balance to 0, and "Total Paid" then reads −500.00 |
| PillarActivity.LogActivity | src/frontend/src/pages/dashboard/PillarPage.tsx:37-54 | no request when the activity text is blank; otherwise the category is the pillar's name, the score is 10 plus 5 exactly when the reflection is not blank, the description starts with the activity text, and the form clears only after success |
| PillarActivity.ScoreIsTenOrFifteen | src/frontend/src/pages/dashboard/PillarPage.tsx:40-42 | the category score is always 10 or 15 |
| PillarActivity.DescriptionCarriesReflection | src/frontend/src/pages/dashboard/PillarPage.tsx:49 | the description is the activity text, followed by " \| Reflection: " and the reflection exactly when the reflection is non-empty |
| PillarActivity.BlankReflectionAppendedUnrewarded | src/frontend/src/pages/dashboard/PillarPage.tsx:41-49 | a non-empty reflection of white space only, such as one space, is appended to the description after " \| Reflection: " but earns no bonus |
| PillarActivity.CurrentProgress | src/frontend/src/pages/dashboard/PillarPage.tsx:34-35 | the shown progress is that of the first profile pillar with the page's name, or 0 when none matches or there is no profile |
| Mindfulness.Submit | src/frontend/src/pages/dashboard/MindfulnessPage.tsx:30-40 | refused exactly when the type or the duration is empty; otherwise both go out, and the form clears only after success |
| Mindfulness.SubmitGrowsTotalAndHistory | src/frontend/src/pages/dashboard/MindfulnessPage.tsx:30-42 | a successful submit, once stored, raises the total minutes by the typed duration and puts the typed activity at the head of the history |
| Mindfulness.TotalMinutes | src/frontend/src/pages/dashboard/MindfulnessPage.tsx:42 | the total is 0 with no activities or no profile |
| Mindfulness.TotalGrowsByDuration | src/frontend/src/pages/dashboard/MindfulnessPage.tsx:42 | one more activity raises the total by exactly its duration |
| Mindfulness.AverageMinutes | src/frontend/src/pages/dashboard/MindfulnessPage.tsx:148-150 | the average is 0 with no activities and otherwise the total divided by the count, rounded to nearest |
| Mindfulness.AverageWithinRange | src/frontend/src/pages/dashboard/MindfulnessPage.tsx:148-150 | when every duration lies in [lo, hi], so does the rounded average |
| Mindfulness.History | src/frontend/src/pages/dashboard/MindfulnessPage.tsx:184 | the history is the stored list reversed: same length, same items, newest first |
| Overview.TotalProgress | src/frontend/src/pages/dashboard/OverviewPage.tsx:12 | overall progress times the pillar count is the sum of the pillars' progress, an equal-weight mean |
| Overview.TotalProgressBounded | src/frontend/src/pages/dashboard/OverviewPage.tsx:12 | when every pillar's progress is in [0, 100], so is the mean |
| Overview.DisplayedProgressIsRoundedMean | src/frontend/src/pages/dashboard/OverviewPage.tsx:12-31 | the displayed value is within one half of the exact mean, and in [0, 100] when the pillars are |
| Overview.RecentJournal | src/frontend/src/pages/dashboard/OverviewPage.tsx:73 | the last min(3, n) journal entries, newest first |
| Overview.RecentMindfulness | src/frontend/src/pages/dashboard/OverviewPage.tsx:98 | the last min(3, n) mindfulness activities, newest first |
| Rewards.AchievedBadges | src/frontend/src/pages/dashboard/RewardsPage.tsx:12 | holds every achieved badge and only achieved badges |
| Rewards.InProgressBadges | src/frontend/src/pages/dashboard/RewardsPage.tsx:13 | holds every unachieved badge and only unachieved badges |
| Rewards.BadgesPartition | src/frontend/src/pages/dashboard/RewardsPage.tsx:12-13 | each badge is in exactly one list, as often as it occurs; the counts add up to the total, and both lists keep the original order |
| Rewards.BadgeProgress | src/frontend/src/pages/dashboard/RewardsPage.tsx:135 | the bar value times the threshold is 100 times the points |
| Rewards.BadgeProgressFull | src/frontend/src/pages/dashboard/RewardsPage.tsx:135 | the bar reaches 100 exactly when the points reach the threshold |
| Rewards.BadgeProgressCanExceedHundred | src/frontend/src/pages/dashboard/RewardsPage.tsx:135 | the bar is not capped: 250 points against a 100-point badge reads 250 |
| Rewards.RecentRewards | src/frontend/src/pages/dashboard/RewardsPage.tsx:166 | the last min(10, n) rewards, newest first |
| Rewards.TiersNested | src/frontend/src/pages/dashboard/RewardsPage.tsx:209-228 | tiers unlock at 100, 200 and 400 points: an unlocked tier implies every lower one, and more points never lock a tier |
| Medications.AddMedication | src/frontend/src/components/MedicationManagement.tsx:35-49 | refused exactly when the name or the dosage is empty; otherwise the form's four fields, a start of now in nanoseconds and no end date; the form resets to its defaults only after success |
| Medications.AddedMedicationReopens | src/frontend/src/components/MedicationManagement.tsx:35-83 | a stored new medication, opened for editing, puts back exactly the submitted form, and saving it keeps the id and start and sends no end date |
| Medications.KeptEndDate | src/frontend/src/components/MedicationManagement.tsx:61 | `endDate \|\| null` keeps a present end date unless it is 0 |
| Medications.OpenEdit | src/frontend/src/components/MedicationManagement.tsx:75-84 | opening the editor copies exactly the record's four editable fields into the form |
| Medications.EditMedication | src/frontend/src/components/MedicationManagement.tsx:51-67 | refused exactly when nothing is being edited or the name or dosage is empty; otherwise the record's id and dates with the form's four fields; the form resets only after success |
| Medications.EditRoundTrip | src/frontend/src/components/MedicationManagement.tsx:54-83 | opening a record and saving it untouched gives back the same record |
| Medications.OpenAdherence | src/frontend/src/components/MedicationManagement.tsx:100-103 | selects the medication and opens the dialog, keeping the notes |
| Medications.LogAdherence | src/frontend/src/components/MedicationManagement.tsx:86-98 | refused exactly when no medication is selected; otherwise the taken flag and the notes unchanged; the dialog clears only after success |
| Medications.LoggedDoseIsLast | src/frontend/src/components/MedicationManagement.tsx:86-98 | the entry appended for a logged dose carries the pressed flag and the typed notes, and "Last logged" then reports it |
| Medications.LastLogged | src/frontend/src/components/MedicationManagement.tsx:227-229 | "Last logged" is hidden exactly when the log is empty, and otherwise shows a logged entry's time |
| Medications.LastLoggedAfterAppend | src/frontend/src/components/MedicationManagement.tsx:227-229 | after an entry is appended, "Last logged" shows that entry's time |
| Journal.Submit | src/frontend/src/pages/dashboard/JournalPage.tsx:15-21 | nothing is sent when the draft is blank; otherwise the raw, untrimmed draft; it clears only after success |
| Journal.Displayed | src/frontend/src/pages/dashboard/JournalPage.tsx:93 | the list is the stored entries reversed: same length, same entries, newest first |
| Journal.OverviewShowsHeadOfList | src/frontend/src/pages/dashboard/OverviewPage.tsx:73 | the overview's three recent entries are the top of the journal page's list |
| Questionnaire.IdsDistinct | src/frontend/src/pages/OnboardingFlow.tsx:13-41 | there are five questions with pairwise distinct ids, and the last index is 4 |
| Onboarding.ChoosePhoto | src/frontend/src/pages/OnboardingFlow.tsx:56-66 | a chosen file is remembered, and a dismissed picker keeps the previous choice |
| Onboarding.HandlePhotoUpload | src/frontend/src/pages/OnboardingFlow.tsx:68-82 | nothing without a chosen photo; otherwise it uploads as the baseline photo and moves to the quiz only after success |
| Onboarding.EditCurrentAnswer | src/frontend/src/pages/OnboardingFlow.tsx:226-234 | the typed or chosen text becomes the current question's draft |
| Onboarding.HandleQuizNext | src/frontend/src/pages/OnboardingFlow.tsx:84-100 | nothing while the answer is empty; otherwise it is saved, and after success the index rises by one with the drafts cleared, or the flow completes after the last question; a failed save changes nothing |
| Onboarding.Step | src/frontend/src/pages/OnboardingFlow.tsx:46-300 | every action keeps the index in [0, 5), keeps it at 0 on the photo step, moves the step forward by at most one, and changes neither step nor index when its call fails |
| Onboarding.SavedAnswersAdmissible | src/frontend/src/pages/OnboardingFlow.tsx:220-236 | a saved answer is one its question's input can produce, so a choice question is answered with one of its options |
| Onboarding.StepCountsAnswers | src/frontend/src/pages/OnboardingFlow.tsx:94-99 | each successful save moves the answered count on by exactly one, and nothing else moves it |
| Onboarding.Run | src/frontend/src/pages/OnboardingFlow.tsx:46-98 | any run of actions keeps the invariant and never moves the step backwards |
| Onboarding.RunCountsAnswers | src/frontend/src/pages/OnboardingFlow.tsx:84-100 | over any run, the answered count grows by exactly the number of successful saves |
| Onboarding.CompletionTakesFiveSaves | src/frontend/src/pages/OnboardingFlow.tsx:84-100 | the flow starts on the photo step at question 0, and it reaches completion only after exactly five successful saves |
| Onboarding.HeaderProgress | src/frontend/src/pages/OnboardingFlow.tsx:106-108 | the header bar reads 50 on the photo step and 100 afterwards |
| Onboarding.QuizBar | src/frontend/src/pages/OnboardingFlow.tsx:196-209 | the quiz bar reads 50 + 10·(index + 1), between 60 and 100 |
| Quiz.EditAnswer | src/frontend/src/pages/dashboard/QuizPage.tsx:142-161 | an answer the question's input can produce becomes the draft; anything else leaves it |
| Quiz.HandleNext | src/frontend/src/pages/dashboard/QuizPage.tsx:51-64 | nothing while the answer is empty; otherwise it is saved, and after success the index rises by one with the drafts cleared, except on the last question, where the page stays |
| Quiz.HandlePrevious | src/frontend/src/pages/dashboard/QuizPage.tsx:66-71 | back one question with the drafts cleared, nothing on the first, so the index stays in [0, 4] |
| Quiz.PreviousAfterNext | src/frontend/src/pages/dashboard/QuizPage.tsx:60-71 | going back after a successful step forward returns to the question just answered, with its draft cleared |
| Quiz.AnsweredIds | src/frontend/src/pages/dashboard/QuizPage.tsx:48 | the saved responses' question ids, in order, or none without a profile |
| Quiz.EveryIncluded | src/frontend/src/pages/dashboard/QuizPage.tsx:49 | `every(q => ids.includes(q.id))` holds exactly when each question's id is among the ids |
| Quiz.AllAnsweredIffEverySaved | src/frontend/src/pages/dashboard/QuizPage.tsx:48-49 | the quiz counts as complete exactly when each of the five ids has some saved response, whatever the order and however many repeats |
| Quiz.AnsweredStaysAnswered | src/frontend/src/pages/dashboard/QuizPage.tsx:48-49 | saving another response never makes a complete quiz incomplete |
| Quiz.PercentComplete | src/frontend/src/pages/dashboard/QuizPage.tsx:133 | "n% Complete" is exactly 20·(index + 1) |
| Quiz.View | src/frontend/src/pages/dashboard/QuizPage.tsx:73-114 | the completion card shows exactly when every question is answered, and otherwise the current question |
| Quiz.ReviewAsWritten | src/frontend/src/pages/dashboard/QuizPage.tsx:103 | "Review Questions" resets the index to 0 and changes nothing else |
| Quiz.ReviewAsWrittenStaysOnCard | src/frontend/src/pages/dashboard/QuizPage.tsx:73-103 | once every question is answered, the completion card is still shown after "Review Questions" |
| Quiz.CorrectedView | src/frontend/src/pages/dashboard/QuizPage.tsx:73-114 | in review mode the current question shows even when all are answered, and otherwise the page is as written |
| Quiz.Review | src/frontend/src/pages/dashboard/QuizPage.tsx:103 | the corrected button goes to question 0 in review mode |
| Quiz.ReviewShowsFirstQuestion | src/frontend/src/pages/dashboard/QuizPage.tsx:102-108 | with the correction, "Review Questions" shows the first question, and nothing changes outside review mode |
| App.SelectScreen | src/frontend/src/App.tsx:27-78 | the spinner shows exactly under the loading condition; landing, profile setup, onboarding and dashboard each require what their branch checks |
| App.ScreenCharacterised | src/frontend/src/App.tsx:28-78 | each screen holds exactly when its condition does and every earlier one fails, so exactly one screen is chosen for every input |
| App.DashboardWithoutProfile | src/frontend/src/App.tsx:50-78 | with the profile neither fetched nor present and nothing loading, the dashboard is what shows |
| App.TutorialStep | src/frontend/src/App.tsx:19-24 | an effect run turns the tutorial on and records it exactly when the user is authenticated, onboarding is completed and the session has no record; closing hides it |
| App.TutorialRun | src/frontend/src/App.tsx:20-25 | once recorded, the session's tutorial record stays |
| App.AtMostOncePerSession | src/frontend/src/App.tsx:20-25 | over any run of events, the tutorial is turned on at most once per session, and never after the session has recorded it |
| App.ShownOnlyAfterCompletion | src/frontend/src/App.tsx:21 | a tutorial that is on was turned on by an effect run that saw an authenticated user with onboarding completed |
| App.TutorialVisible | src/frontend/src/App.tsx:72-78 | the tutorial shows exactly when it is on and the inputs select none of the spinner, the landing page, profile setup or onboarding, so it is only ever drawn over the dashboard |
| Dashboard.PillarTable | src/frontend/src/pages/Dashboard.tsx:15-25 | seven pillars with distinct ids, which are exactly the pillar members of the page union, in order |
| Dashboard.PillarIdsArePages | src/frontend/src/pages/Dashboard.tsx:15-25 | a key is some pillar's id exactly when it is a pillar member of the page union |
| Dashboard.PillarFor | src/frontend/src/pages/Dashboard.tsx:57 | the lookup finds a table entry with that id exactly for the pillar keys |
| Dashboard.RenderPage | src/frontend/src/pages/Dashboard.tsx:38-62 | the named pages map to their own views, each pillar key to its own pillar's page, and everything else to the overview |
| Dashboard.OverviewIsTheDefault | src/frontend/src/pages/Dashboard.tsx:28-60 | the dashboard opens on the overview, and a key outside the page union shows it too |
| Dashboard.PillarPageUsesDisplayName | src/frontend/src/pages/Dashboard.tsx:50-58 | pillar i's key renders pillar i's page, and activity logged there is rewarded under that pillar's display name |
| BuildMarker.ShortSha | src/frontend/src/utils/buildMarker.ts:15 | the short SHA is the first eight characters, or all of a shorter hash |
| BuildMarker.GetBuildMarker | src/frontend/src/utils/buildMarker.ts:7-23 | the marker is never empty; sources are taken in order (SHA, build id, marker, time) with empty strings counting as absent; with none, it is "dev-" followed by digits |
| BuildMarker.DevMarkerRoundTrip | src/frontend/src/utils/buildMarker.ts:22 | the digits after "dev-" read back as the timestamp they came from |
| BuildMarker.EmptyShaIsSkipped | src/frontend/src/utils/buildMarker.ts:15-16 | an empty SHA defers to the build id |

Helpers without a row of their own, each characterised by the rows named here:
`Debts.CurrentBalance` (`getCurrentBalance`, by `Debts.LedgerReplay`),
`Debts.Summarize` (the summary strip, by `Debts.SummaryPaidIsPaidDown` and
`Debts.SummaryPaidBounds`), `Debts.OffersPayment` (the "Record Payment" condition, by
`Debts.ProgressAgreesWithBalance`), `Overview.DisplayedProgress` (the rounded mean, by
`Overview.DisplayedProgressIsRoundedMean`), `Quiz.AllQuestionsAnswered` (by
`Quiz.AllAnsweredIffEverySaved`), `App.ShowsLoading` (the loading condition, by
`App.ScreenCharacterised`), `Text.Trim` (by `Text.TrimEmptyIffBlank`,
`Text.TrimEndsClean` and `Text.TrimIsSlice`) and `Views.Sum` (the `reduce` sums, by
`Views.SumAppend` and the other `Views.Sum*` lemmas).

## Left out

- The react-query hooks, actor calls, toasts and cache invalidation in `src/frontend/src/hooks/useQueries.ts` are remote-call plumbing. Only their effect is kept: a handler's post-call updates happen when the call succeeds.
- The store's own effects are not modelled, because the client does not contain them: id assignment, appending payments and adherence entries, point accrual and badge evaluation. `Debts.Stored` only shows the shape a created debt takes.
- Parsing of form text (`parseFloat(...) * 100` then `BigInt`, `parseInt`, `new Date(...)`) is floating-point and string conversion. Such fields are modelled as already-parsed integers, and `BigInt`'s failure on non-integral input is not modelled.
- Floating-point rounding is not modelled. This covers `Date.now() * 1000000`, `Number` sums, and the quiz bar's `0.6 * 100` step. The model computes these exactly.
- Display formatting is not modelled: `toLocaleDateString`, `toFixed`, icons, colours and all other JSX.
- recharts charts, `sessionStorage` I/O, `FileReader` previews and photo bytes are I/O. The session flag becomes a field of `App.TutorialState`.
- React's rule for when an effect re-runs is not modelled. Every `App.EffectRuns` event is taken as one run of the effect.
- `isPending` button disabling is UI concurrency. A handler is modelled as running to completion before the next event.
- Deleting a debt or a medication is not modelled. It only passes an id to the store.
- `src/frontend/src/pages/ProfileSetup.tsx`, `LandingPage.tsx`, `WelcomeTutorial.tsx` and `ResourcesPage.tsx` are left out. They hold a two-field guard, static markup or mock data.
- `Domain.UserProfile` drops the profile fields that no modelled rule reads: `id`, `email`, `usageDurationMonths`, `medications`, `debts`, `gamifiedScore`, `skinHealthScore`, `wellnessMetrics` and `progressPhotos` (`src/frontend/src/backend.d.ts` lines 111-130). The debt and medication pages read their records through their own queries (`useGetDebts` and `useGetMedications`), so their functions take those lists as parameters.
- Debts.Progress: requires a non-zero amount once payments exist, where JavaScript would produce Infinity or NaN.
- Debts.LedgerReplay, Debts.BalanceAtPrefix, Debts.NonIncreasing, Debts.SummaryPaidIsPaidDown: stated for non-negative payments only, since with a negative payment the clamped balance can rise (`Debts.NegativePaymentRaisesBalance`); the payment dialog never checks the sign.
- Debts.SummaryPaidBounds: assumes every amount is non-negative, which the add-debt form never checks; `Debts.NegativeDebtAccepted` shows "Total Paid" going negative without it.
- Debts.ProgressAgreesWithBalance: stated for a positive amount and non-negative payments, for the same reasons as `Debts.ProgressBounds`.
- Debts.ProgressBounds: the [0, 100] bound is stated only for non-negative payments and a positive amount, since the source does not enforce either.
- Rewards.BadgeProgress: requires a positive threshold, where JavaScript would divide by zero.
- Overview.TotalProgress: requires at least one pillar, where JavaScript would divide by zero and show NaN.

## Findings

| source | as written | input that shows it | evidently intended | confidence | as-written member | corrected member |
|---|---|---|---|---|---|---|
| src/frontend/src/pages/dashboard/QuizPage.tsx:73, 103 | "Review Questions" only sets the question index to 0. The completion card is chosen from the saved responses alone, so the card stays on screen. | a profile holding responses to all five questions, then a click on "Review Questions" | the button takes the user back to the first question | not executed | Quiz.ReviewAsWrittenStaysOnCard | Quiz.ReviewShowsFirstQuestion |

=== FILE: app.dfy ===
/** The top-level screen choice and the once-per-session welcome tutorial. */
module App {
  import opened Wrappers

  /** The profile query's data: not yet there, `null` (no profile stored), or a profile. */
  datatype ProfileData = Undefined | Null | Present

  /** What the identity and query hooks report. `onboardingCompleted` is `None`
      until its query has data. */
  datatype AppInputs = AppInputs(
    isInitializing: bool,
    isAuthenticated: bool,
    profileLoading: bool,
    onboardingLoading: bool,
    isFetched: bool,
    profile: ProfileData,
    onboardingCompleted: Option<bool>)

  datatype Screen = Loading | Landing | ProfileSetup | OnboardingScreen | DashboardScreen

  /** The spinner condition. */
  predicate ShowsLoading(a: AppInputs) {
    a.isInitializing || (a.isAuthenticated && (a.profileLoading || a.onboardingLoading) && !a.isFetched)
  }

  /** `!onboardingCompleted`: missing data counts as not completed. */
  predicate NotCompleted(a: AppInputs) {
    a.onboardingCompleted != Some(true)
  }

  /** The cascade the root component renders, checked top to bottom. */
  function SelectScreen(a: AppInputs): (r: Screen)
    ensures r == Loading <==> ShowsLoading(a)
    ensures r == Landing ==> !a.isAuthenticated && !a.isInitializing
    ensures r == ProfileSetup ==> a.isAuthenticated && a.isFetched && a.profile == Null
    ensures r == OnboardingScreen ==> a.isAuthenticated && a.profile == Present && NotCompleted(a)
    ensures r == DashboardScreen ==> a.isAuthenticated && !a.isInitializing
  {
    if ShowsLoading(a) then Loading
    else if !a.isAuthenticated then Landing
    else if a.isFetched && a.profile == Null then ProfileSetup
    else if a.profile == Present && NotCompleted(a) then OnboardingScreen
    else DashboardScreen
  }

  /** Each screen in terms of the inputs alone, both directions: the five conditions
      are mutually exclusive and cover every input. */
  lemma ScreenCharacterised(a: AppInputs)
    ensures SelectScreen(a) == Landing <==> !ShowsLoading(a) && !a.isAuthenticated
    ensures SelectScreen(a) == ProfileSetup <==>
      !ShowsLoading(a) && a.isAuthenticated && a.isFetched && a.profile == Null
    ensures SelectScreen(a) == OnboardingScreen <==>
      !ShowsLoading(a) && a.isAuthenticated && a.profile == Present && NotCompleted(a)
    ensures SelectScreen(a) == DashboardScreen <==>
      !ShowsLoading(a) && a.isAuthenticated
      && !(a.isFetched && a.profile == Null)
      && !(a.profile == Present && NotCompleted(a))
  {
  }

  /** The dashboard is also what shows when the profile query has neither data nor
      a fetch behind it and nothing is loading. */
  lemma DashboardWithoutProfile()
    ensures SelectScreen(AppInputs(false, true, false, false, false, Undefined, None)) == DashboardScreen
  {
  }

  /** The tutorial flag and the session's "tutorialShown" entry. */
  datatype TutorialState = TutorialState(showTutorial: bool, shownThisSession: bool)

  /** A fresh session: nothing shown yet. */
  const SessionStart: TutorialState := TutorialState(false, false)

  /** The effect runs (its inputs changed) or the user closes the tutorial. */
  datatype TutorialEvent = EffectRuns(isAuthenticated: bool, onboardingCompleted: Option<bool>) | CloseTutorial

  /** Does this event turn the tutorial on? */
  predicate Activates(st: TutorialState, ev: TutorialEvent) {
    ev.EffectRuns? && ev.isAuthenticated && ev.onboardingCompleted == Some(true) && !st.shownThisSession
  }

  function TutorialStep(st: TutorialState, ev: TutorialEvent): (r: TutorialState)
    ensures Activates(st, ev) ==> r == TutorialState(true, true)
    ensures !Activates(st, ev) ==> r.shownThisSession == st.shownThisSession
    ensures ev.CloseTutorial? ==> !r.showTutorial
    ensures r.showTutorial && !st.showTutorial ==> Activates(st, ev)
  {
    match ev
    case EffectRuns(auth, completed) =>
      if auth && completed == Some(true) && !st.shownThisSession then TutorialState(true, true) else st
    case CloseTutorial => st.(showTutorial := false)
  }

  /** The state after a sequence of events. */
  function TutorialRun(st: TutorialState, evs: seq<TutorialEvent>): (r: TutorialState)
    ensures st.shownThisSession ==> r.shownThisSession
    decreases |evs|
  {
    if evs == [] then st else TutorialRun(TutorialStep(st, evs[0]), evs[1..])
  }

  /** How many events of a run turned the tutorial on. */
  function Activations(st: TutorialState, evs: seq<TutorialEvent>): nat
    decreases |evs|
  {
    if evs == [] then 0
    else (if Activates(st, evs[0]) then 1 else 0) + Activations(TutorialStep(st, evs[0]), evs[1..])
  }

  /** Within a session the tutorial is turned on at most once, and never again once
      the session has recorded it. */
  lemma {:induction false} AtMostOncePerSession(st: TutorialState, evs: seq<TutorialEvent>)
    ensures Activations(st, evs) <= 1
    ensures st.shownThisSession ==> Activations(st, evs) == 0
    ensures Activations(st, evs) == 1 ==> TutorialRun(st, evs).shownThisSession
    decreases |evs|
  {
    if evs != [] {
      AtMostOncePerSession(TutorialStep(st, evs[0]), evs[1..]);
    }
  }

  /** The tutorial is drawn over the dashboard only: it shows exactly when it is on
      and the inputs select none of the spinner, the landing page, profile setup or
      onboarding. */
  function TutorialVisible(a: AppInputs, st: TutorialState): (r: bool)
    ensures r <==> st.showTutorial && !ShowsLoading(a) && a.isAuthenticated
                   && !(a.isFetched && a.profile == Null)
                   && !(a.profile == Present && NotCompleted(a))
  {
    ScreenCharacterised(a);
    SelectScreen(a) == DashboardScreen && st.showTutorial
  }

  /** A tutorial that is on was turned on by an effect run that saw an
      authenticated user with onboarding completed. */
  lemma {:induction false} ShownOnlyAfterCompletion(st: TutorialState, evs: seq<TutorialEvent>)
    requires !st.showTutorial
    ensures TutorialRun(st, evs).showTutorial ==>
      exists i :: 0 <= i < |evs| && evs[i].EffectRuns? && evs[i].isAuthenticated && evs[i].onboardingCompleted == Some(true)
    decreases |evs|
  {
    if evs != [] {
      var st' := TutorialStep(st, evs[0]);
      if !st'.showTutorial {
        ShownOnlyAfterCompletion(st', evs[1..]);
        if TutorialRun(st, evs).showTutorial {
          var i :| 0 <= i < |evs[1..]| && evs[1..][i].EffectRuns? && evs[1..][i].isAuthenticated
                   && evs[1..][i].onboardingCompleted == Some(true);
          assert evs[i + 1] == evs[1..][i];
        }
      }
    }
  }
}

=== FILE: build_marker.dfy ===
/** The version marker shown by the client, chosen from build-time settings. */
module BuildMarker {
  import opened Wrappers
  import Text

  /** The four optional build-time variables. */
  datatype BuildEnv = BuildEnv(gitSha: Option<string>, buildId: Option<string>, buildMarker: Option<string>, buildTime: Option<string>)

  /** JavaScript truthiness of an optional string: present and non-empty. */
  predicate Truthy(v: Option<string>) {
    v.Some? && v.value != ""
  }

  const DevPrefix: string := "dev-"

  /** The first eight characters of a commit hash, or all of a shorter one. */
  function ShortSha(sha: string): (r: string)
    ensures |r| == if |sha| < 8 then |sha| else 8
    ensures r == sha[..|r|]
  {
    if |sha| < 8 then sha else sha[..8]
  }

  /** `getBuildMarker`: the short git SHA, else the build id, else the marker, else
      the build time; with none of them, "dev-" and the current time in milliseconds. */
  function GetBuildMarker(env: BuildEnv, nowMs: nat): (r: string)
    ensures r != ""
    ensures Truthy(env.gitSha) ==> r == ShortSha(env.gitSha.value)
    ensures !Truthy(env.gitSha) && Truthy(env.buildId) ==> r == env.buildId.value
    ensures !Truthy(env.gitSha) && !Truthy(env.buildId) && Truthy(env.buildMarker) ==> r == env.buildMarker.value
    ensures !Truthy(env.gitSha) && !Truthy(env.buildId) && !Truthy(env.buildMarker) && Truthy(env.buildTime)
      ==> r == env.buildTime.value
    ensures !Truthy(env.gitSha) && !Truthy(env.buildId) && !Truthy(env.buildMarker) && !Truthy(env.buildTime)
      ==> |r| > |DevPrefix| && r[..|DevPrefix|] == DevPrefix && Text.IsDigits(r[|DevPrefix|..])
  {
    if Truthy(env.gitSha) then ShortSha(env.gitSha.value)
    else if Truthy(env.buildId) then env.buildId.value
    else if Truthy(env.buildMarker) then env.buildMarker.value
    else if Truthy(env.buildTime) then env.buildTime.value
    else
      var digits := Text.NatToString(nowMs);
      assert (DevPrefix + digits)[|DevPrefix|..] == digits;
      DevPrefix + digits
  }

  /** The development fallback carries the timestamp recoverably: the digits after
      "dev-" read back as the time it was built from. */
  lemma DevMarkerRoundTrip(nowMs: nat)
    ensures var r := GetBuildMarker(BuildEnv(None, None, None, None), nowMs);
      r[..|DevPrefix|] == DevPrefix && Text.ParseDigits(r[|DevPrefix|..]) == nowMs
  {
    var r := GetBuildMarker(BuildEnv(None, None, None, None), nowMs);
    assert r[|DevPrefix|..] == Text.NatToString(nowMs);
    Text.ParseNatToString(nowMs);
  }

  /** Empty settings count as absent: an empty SHA defers to the build id. */
  lemma EmptyShaIsSkipped(id: string)
    requires id != ""
    ensures GetBuildMarker(BuildEnv(Some(""), Some(id), None, None), 0) == id
  {
  }
}

=== FILE: dashboard.dfy ===
/** The dashboard: the seven wellness pillars and which page a sidebar key shows. */
module Dashboard {
  import opened Wrappers
  import opened Domain
  import Views
  import PillarActivity

  datatype PillarEntry = PillarEntry(id: string, name: string)

  /** The pillar table, in sidebar order. */
  const Pillars: seq<PillarEntry> := [
    PillarEntry("physical", "Physical Care"),
    PillarEntry("emotional", "Emotional Resilience"),
    PillarEntry("social", "Social Connection"),
    PillarEntry("financial", "Financial Health"),
    PillarEntry("leisure", "Leisure & Fun"),
    PillarEntry("growth", "Personal Growth"),
    PillarEntry("spiritual", "Spiritual Meaning")
  ]

  /** The members of the page union that name a pillar. */
  const PillarPages: seq<string> := ["physical", "emotional", "social", "financial", "leisure", "growth", "spiritual"]

  /** The members of the page union with a page of their own. */
  const OtherPages: seq<string> := ["overview", "journal", "mindfulness", "rewards", "resources"]

  /** The page shown when the dashboard opens. */
  const InitialPage: string := "overview"

  datatype View = OverviewView | JournalView | MindfulnessView | RewardsView | ResourcesView | PillarView(pillar: PillarEntry)

  /** The pillar table has seven entries with distinct ids, and its ids are
      exactly the pillar members of the page union, in order. */
  lemma PillarTable()
    ensures |Pillars| == 7
    ensures forall i, j :: 0 <= i < j < |Pillars| ==> Pillars[i].id != Pillars[j].id
    ensures forall i :: 0 <= i < |Pillars| ==> Pillars[i].id == PillarPages[i]
    ensures |PillarPages| == |Pillars|
    ensures forall p :: p in PillarPages ==> p !in OtherPages
  {
  }

  /** A key names a pillar of the table exactly when it is a pillar member of the page union. */
  lemma PillarIdsArePages(page: string)
    ensures (exists i :: 0 <= i < |Pillars| && Pillars[i].id == page) <==> page in PillarPages
  {
    PillarTable();
    if page in PillarPages {
      var i :| 0 <= i < |PillarPages| && PillarPages[i] == page;
      assert Pillars[i].id == page;
    }
  }

  /** `pillars.find(p => p.id === page)`. */
  function PillarFor(page: string): (r: Option<PillarEntry>)
    ensures r.None? <==> page !in PillarPages
    ensures r.Some? ==> r.value in Pillars && r.value.id == page
  {
    PillarIdsArePages(page);
    Views.Find(Pillars, (e: PillarEntry) => e.id == page)
  }

  /** `renderPage`: the five named pages, a pillar page for each pillar id (the
      overview should its lookup fail), and the overview for anything else. */
  function RenderPage(page: string): (r: View)
    ensures page == "journal" ==> r == JournalView
    ensures page == "mindfulness" ==> r == MindfulnessView
    ensures page == "rewards" ==> r == RewardsView
    ensures page == "resources" ==> r == ResourcesView
    ensures page in PillarPages ==> r.PillarView? && r.pillar in Pillars && r.pillar.id == page
    ensures r == OverviewView <==> page !in OtherPages[1..] && page !in PillarPages
  {
    if page == "overview" then OverviewView
    else if page == "journal" then JournalView
    else if page == "mindfulness" then MindfulnessView
    else if page == "rewards" then RewardsView
    else if page == "resources" then ResourcesView
    else if page in PillarPages then
      var pillar := PillarFor(page);
      if pillar.Some? then PillarView(pillar.value) else OverviewView
    else OverviewView
  }

  /** The dashboard opens on the overview, and a key outside the page union shows it too. */
  lemma OverviewIsTheDefault(page: string)
    ensures RenderPage(InitialPage) == OverviewView
    ensures page !in OtherPages && page !in PillarPages ==> RenderPage(page) == OverviewView
  {
  }

  /** Activity logged on pillar `i`'s page is rewarded under that pillar's display
      name, which is also the name its shown progress is looked up by. */
  lemma PillarPageUsesDisplayName(i: nat, form: PillarActivity.LogForm, ok: bool)
    requires i < |Pillars|
    ensures var v := RenderPage(PillarPages[i]);
      && v == PillarView(Pillars[i])
      && var r := PillarActivity.LogActivity(v.pillar.name, form, ok);
         r.request.Some? ==> r.request.value.category == Pillars[i].name
  {
    PillarTable();
    var v := RenderPage(PillarPages[i]);
    assert v.pillar.id == Pillars[i].id;
    var k :| 0 <= k < |Pillars| && Pillars[k] == v.pillar;
    assert k == i;
  }
}

=== FILE: debts.dfy ===
/** The debt tracker: adding debts, recording clamped payments, and the balances,
    progress, chart and totals derived from the payment ledger. */
module Debts {
  import opened Wrappers
  import opened Domain
  import opened Numbers
  import Views

  // ----- the ledger -----

  /** The balance after paying `paid` off `balance`: never below zero, an
      over-payment leaving exactly zero. */
  function ClampedBalance(balance: int, paid: int): (r: int)
    ensures r >= 0 && r >= balance - paid
    ensures r == 0 || r == balance - paid
  {
    Max(0, balance - paid)
  }

  /** What is still owed: the last payment's remaining balance, or the original
      amount while there are no payments. */
  function CurrentBalance(debt: DebtRecord): int {
    if |debt.payments| == 0 then debt.amount
    else debt.payments[|debt.payments| - 1].remainingBalance
  }

  function AmountPaid(p: DebtPayment): int {
    p.amountPaid
  }

  /** The sum of every amount paid so far. */
  function TotalPaid(payments: seq<DebtPayment>): int {
    Views.Sum(payments, AmountPaid)
  }

  /** The balance in force just before payment `i`. */
  function BalanceBefore(debt: DebtRecord, i: nat): int
    requires i <= |debt.payments|
  {
    if i == 0 then debt.amount else debt.payments[i - 1].remainingBalance
  }

  /** Every ledger entry was produced by the clamping rule from the balance before it. */
  ghost predicate WellFormedLedger(debt: DebtRecord) {
    forall i :: 0 <= i < |debt.payments| ==> EntryFollows(debt, i)
  }

  /** Entry `i` is the balance before it less its amount, floored at zero. */
  ghost predicate EntryFollows(debt: DebtRecord, i: nat)
    requires i < |debt.payments|
  {
    debt.payments[i].remainingBalance == ClampedBalance(BalanceBefore(debt, i), debt.payments[i].amountPaid)
  }

  ghost predicate NonNegativePayments(debt: DebtRecord) {
    forall i :: 0 <= i < |debt.payments| ==> debt.payments[i].amountPaid >= 0
  }

  /** Replaying a well-formed ledger of non-negative payments: once a payment has
      been made, the balance is the original amount less everything paid so far,
      floored at zero. Before the first payment it is the amount itself, which the
      add-debt form does not require to be non-negative. */
  lemma {:induction false} BalanceAtPrefix(debt: DebtRecord, k: nat)
    requires WellFormedLedger(debt) && NonNegativePayments(debt)
    requires k <= |debt.payments|
    ensures BalanceBefore(debt, k)
         == if k == 0 then debt.amount else Max(0, debt.amount - TotalPaid(debt.payments[..k]))
  {
    if k > 0 {
      BalanceAtPrefix(debt, k - 1);
      var ps := debt.payments;
      var last := ps[k - 1];
      assert ps[..k][..k - 1] == ps[..k - 1];
      assert TotalPaid(ps[..k]) == TotalPaid(ps[..k - 1]) + last.amountPaid;
      assert EntryFollows(debt, k - 1);
      if k > 1 {
        assert last.amountPaid >= 0;
        ClampTwice(debt.amount, TotalPaid(ps[..k - 1]), last.amountPaid);
      } else {
        assert ps[..k - 1] == [];
      }
    }
  }

  /** Flooring at zero twice is flooring once, when the second amount is non-negative. */
  lemma ClampTwice(amount: int, paid: int, more: int)
    requires more >= 0
    ensures ClampedBalance(Max(0, amount - paid), more) == Max(0, amount - (paid + more))
  {
  }

  /** Over a well-formed ledger of non-negative payments the current balance is
      max(0, amount - total paid) once anything was paid, and always for a
      non-negative amount; the balances after each payment never go up and never go
      below zero. */
  lemma LedgerReplay(debt: DebtRecord)
    requires WellFormedLedger(debt) && NonNegativePayments(debt)
    ensures CurrentBalance(debt)
         == if debt.payments == [] then debt.amount else Max(0, debt.amount - TotalPaid(debt.payments))
    ensures debt.amount >= 0 ==> CurrentBalance(debt) == Max(0, debt.amount - TotalPaid(debt.payments))
    ensures forall i, j :: 0 <= i <= j < |debt.payments| ==>
      0 <= debt.payments[j].remainingBalance <= debt.payments[i].remainingBalance
  {
    var ps := debt.payments;
    BalanceAtPrefix(debt, |ps|);
    assert ps[..|ps|] == ps;
    forall i, j | 0 <= i <= j < |ps|
      ensures 0 <= ps[j].remainingBalance <= ps[i].remainingBalance
    {
      NonIncreasing(debt, i, j);
    }
  }

  /** Any later entry is at most any earlier one, and never below zero. */
  lemma {:induction false} NonIncreasing(debt: DebtRecord, i: nat, j: nat)
    requires WellFormedLedger(debt) && NonNegativePayments(debt)
    requires i <= j < |debt.payments|
    ensures 0 <= debt.payments[j].remainingBalance <= debt.payments[i].remainingBalance
    decreases j - i
  {
    if i < j {
      NonIncreasing(debt, i, j - 1);
      StepDown(debt, j);
    } else {
      assert EntryFollows(debt, j);
    }
  }

  /** One entry never exceeds the one before it, and never goes below zero. */
  lemma StepDown(debt: DebtRecord, j: nat)
    requires WellFormedLedger(debt) && NonNegativePayments(debt)
    requires 0 < j < |debt.payments|
    ensures 0 <= debt.payments[j].remainingBalance <= debt.payments[j - 1].remainingBalance
  {
    var ps := debt.payments;
    assert EntryFollows(debt, j - 1);
    assert EntryFollows(debt, j);
    assert ps[j].amountPaid >= 0;
    assert BalanceBefore(debt, j) == ps[j - 1].remainingBalance;
  }

  // ----- adding a debt -----

  /** The add-debt form. Amount, interest and due date are text fields the client
      parses; here an empty field is None and a filled one holds its value already
      scaled (cents, basis points, milliseconds). */
  datatype DebtForm = DebtForm(
    creditorName: string,
    amount: Option<int>,
    interestRate: Option<int>,
    dueDateMs: Option<int>,
    dialogOpen: bool)

  const EmptyDebtForm: DebtForm := DebtForm("", None, None, None, false)

  /** The arguments of the service's `addDebt`. */
  datatype NewDebt = NewDebt(
    creditorName: string,
    amount: int,
    interestRate: int,
    dueDate: Time,
    payments: seq<DebtPayment>,
    status: DebtStatus)

  /** `handleAddDebt`: refused when the creditor or the amount is empty; otherwise
      an active debt with no payments carrying the typed creditor, amount, interest
      and due date, interest defaulting to 0 and the due date to now. Nothing checks
      the sign of the amount. The form is cleared and closed only once the call has succeeded. */
  function AddDebt(form: DebtForm, nowMs: int, callSucceeds: bool): (r: Handled<NewDebt, DebtForm>)
    ensures r.request.None? <==> form.creditorName == "" || form.amount.None?
    ensures r.request.Some? ==>
      var d := r.request.value;
      && d.creditorName == form.creditorName
      && d.amount == form.amount.value
      && d.status == Active
      && d.payments == []
      && d.interestRate == (if form.interestRate.Some? then form.interestRate.value else 0)
      && d.dueDate == (if form.dueDateMs.Some? then form.dueDateMs.value else nowMs) * NanosPerMilli
    ensures r.state == if r.request.Some? && callSucceeds then EmptyDebtForm else form
  {
    if form.creditorName == "" || form.amount.None? then Handled(None, form)
    else
      var d := NewDebt(
        form.creditorName,
        form.amount.value,
        form.interestRate.GetOr(0),
        form.dueDateMs.GetOr(nowMs) * NanosPerMilli,
        [],
        Active);
      Handled(Some(d), if callSucceeds then EmptyDebtForm else form)
  }

  /** The record the service holds for a new debt, under whatever id it assigns. */
  function Stored(d: NewDebt, id: int): DebtRecord {
    DebtRecord(id, d.status, d.payments, d.dueDate, d.interestRate, d.creditorName, d.amount)
  }

  /** A freshly added debt starts a well-formed ledger: nothing paid, the whole amount owed. */
  lemma NewDebtStartsLedger(form: DebtForm, nowMs: int, ok: bool, id: int)
    requires AddDebt(form, nowMs, ok).request.Some?
    ensures var debt := Stored(AddDebt(form, nowMs, ok).request.value, id);
      && WellFormedLedger(debt)
      && CurrentBalance(debt) == form.amount.value
      && Progress(debt) == 0.0
  {
  }

  // ----- recording a payment -----

  /** The payment dialog: the debt it was opened for and the amount typed (None while empty). */
  datatype PaymentForm = PaymentForm(selectedDebtId: Option<int>, paymentAmount: Option<int>, dialogOpen: bool)

  const ClosedPaymentForm: PaymentForm := PaymentForm(None, None, false)

  /** The arguments of the service's `addDebtPayment`. */
  datatype PaymentRequest = PaymentRequest(debtId: int, payment: DebtPayment)

  /** `openPaymentDialog`. */
  function OpenPaymentDialog(form: PaymentForm, debtId: int): (r: PaymentForm)
    ensures r.selectedDebtId == Some(debtId) && r.dialogOpen
    ensures r.paymentAmount == form.paymentAmount
  {
    form.(selectedDebtId := Some(debtId), dialogOpen := true)
  }

  /** `handleAddPayment`: refused when no debt is selected, the amount is empty, or
      no listed debt has the selected id. Otherwise the payment carries the amount
      and the balance of the first debt with that id, less the amount, floored at 0.
      The dialog is reset only once the call has succeeded. */
  function AddPayment(debts: seq<DebtRecord>, form: PaymentForm, nowMs: int, callSucceeds: bool)
    : (r: Handled<PaymentRequest, PaymentForm>)
    ensures r.request.None? <==>
      || form.selectedDebtId.None?
      || form.paymentAmount.None?
      || forall i :: 0 <= i < |debts| ==> debts[i].id != form.selectedDebtId.value
    ensures r.request.Some? ==>
      var req := r.request.value;
      && req.debtId == form.selectedDebtId.value
      && req.payment.amountPaid == form.paymentAmount.value
      && req.payment.paymentDate == nowMs * NanosPerMilli
      && req.payment.remainingBalance >= 0
      && exists i :: 0 <= i < |debts| && debts[i].id == req.debtId
           && (forall j :: 0 <= j < i ==> debts[j].id != req.debtId)
           && req.payment.remainingBalance
                == Max(0, CurrentBalance(debts[i]) - req.payment.amountPaid)
    ensures r.state == if r.request.Some? && callSucceeds then ClosedPaymentForm else form
  {
    if form.selectedDebtId.None? || form.paymentAmount.None? then Handled(None, form)
    else
      var id := form.selectedDebtId.value;
      match Views.Find(debts, (d: DebtRecord) => d.id == id)
      case None => Handled(None, form)
      case Some(debt) =>
        var paid := form.paymentAmount.value;
        var payment := DebtPayment(paid, ClampedBalance(CurrentBalance(debt), paid), nowMs * NanosPerMilli);
        Handled(Some(PaymentRequest(id, payment)), if callSucceeds then ClosedPaymentForm else form)
  }

  /** Appending the payment the dialog builds to the debt it was built for keeps the
      ledger well-formed, and the appended entry becomes the current balance. */
  lemma PaymentExtendsLedger(debts: seq<DebtRecord>, form: PaymentForm, nowMs: int, ok: bool, i: nat)
    requires i < |debts| && form.selectedDebtId == Some(debts[i].id)
    requires forall j :: 0 <= j < i ==> debts[j].id != debts[i].id
    requires form.paymentAmount.Some?
    requires WellFormedLedger(debts[i])
    ensures AddPayment(debts, form, nowMs, ok).request.Some?
    ensures var p := AddPayment(debts, form, nowMs, ok).request.value.payment;
      var debt' := debts[i].(payments := debts[i].payments + [p]);
      && WellFormedLedger(debt')
      && CurrentBalance(debt') == p.remainingBalance
  {
    var id := debts[i].id;
    var req := AddPayment(debts, form, nowMs, ok).request.value;
    var k :| 0 <= k < |debts| && debts[k].id == req.debtId
             && (forall j :: 0 <= j < k ==> debts[j].id != req.debtId)
             && req.payment.remainingBalance == Max(0, CurrentBalance(debts[k]) - req.payment.amountPaid);
    if k < i {
      assert false;
    } else if k > i {
      assert false;
    }
    AppendKeepsLedger(debts[i], req.payment);
  }

  /** Appending an entry made by the clamping rule from the current balance keeps a
      ledger well-formed, and the entry becomes the current balance. */
  lemma AppendKeepsLedger(debt: DebtRecord, p: DebtPayment)
    requires WellFormedLedger(debt)
    requires p.remainingBalance == ClampedBalance(CurrentBalance(debt), p.amountPaid)
    ensures WellFormedLedger(debt.(payments := debt.payments + [p]))
    ensures CurrentBalance(debt.(payments := debt.payments + [p])) == p.remainingBalance
  {
    var debt' := debt.(payments := debt.payments + [p]);
    var n := |debt.payments|;
    forall k | 0 <= k < |debt'.payments|
      ensures EntryFollows(debt', k)
    {
      if k < n {
        assert EntryFollows(debt, k);
        assert debt'.payments[k] == debt.payments[k];
        assert BalanceBefore(debt', k) == BalanceBefore(debt, k);
      } else {
        assert BalanceBefore(debt', k) == CurrentBalance(debt);
      }
    }
  }

  /** A negative amount passes the dialog's guard and raises the balance. */
  lemma NegativePaymentRaisesBalance()
    ensures var debt := DebtRecord(1, Active, [], 0, 0, "Clinic", 50000);
      var r := AddPayment([debt], PaymentForm(Some(1), Some(-10000), true), 0, true);
      r.request.Some? && r.request.value.payment.remainingBalance == 60000
  {
    var debt := DebtRecord(1, Active, [], 0, 0, "Clinic", 50000);
    Views.FindFirst([debt], (d: DebtRecord) => d.id == 1, 0);
  }

  // ----- derived views -----

  function RealMin(a: real, b: real): real {
    if a <= b then a else b
  }

  /** `calculateProgress`: 0 with no payments, else the share of the original
      amount paid so far as a percentage, capped at 100. The source divides by the
      amount only once there are payments. */
  function Progress(debt: DebtRecord): (r: real)
    requires debt.payments == [] || debt.amount != 0
    ensures r <= 100.0
    ensures debt.payments == [] ==> r == 0.0
    ensures debt.payments != [] ==>
      r == 100.0 || r * debt.amount as real == 100.0 * TotalPaid(debt.payments) as real
    ensures debt.payments != [] ==>
      (r == 100.0 <==> TotalPaid(debt.payments) as real / debt.amount as real >= 1.0)
  {
    if |debt.payments| == 0 then 0.0
    else RealMin(100.0, (TotalPaid(debt.payments) as real / debt.amount as real) * 100.0)
  }

  /** For a positive amount and non-negative payments progress lies in [0, 100], and
      reaches 100 exactly when the payments cover the amount. */
  lemma ProgressBounds(debt: DebtRecord)
    requires debt.amount > 0 && NonNegativePayments(debt)
    ensures 0.0 <= Progress(debt) <= 100.0
    ensures debt.payments != [] ==>
      (Progress(debt) == 100.0 <==> TotalPaid(debt.payments) >= debt.amount)
  {
    if debt.payments != [] {
      var t := TotalPaid(debt.payments);
      var a := debt.amount;
      Views.SumNonNegative(debt.payments, AmountPaid);
      var q := t as real / a as real;
      assert q * a as real == t as real;
      if t >= a {
        Numbers.LessByPositive(1.0, q, a as real);
        assert q * 100.0 >= 100.0;
      } else {
        Numbers.StrictLessByPositive(q, 1.0, a as real);
        assert q * 100.0 < 100.0;
      }
      assert 0.0 <= q by {
        Numbers.LessByPositive(0.0, q, a as real);
      }
    }
  }

  /** The "Record Payment" button shows while progress is below 100. */
  predicate OffersPayment(debt: DebtRecord)
    requires debt.payments == [] || debt.amount != 0
  {
    Progress(debt) < 100.0
  }

  /** On a well-formed ledger the progress bar and the balance agree: a payment is
      still offered exactly while something is owed, and "Paid Off" shows exactly
      when the balance is zero. */
  lemma ProgressAgreesWithBalance(debt: DebtRecord)
    requires WellFormedLedger(debt) && NonNegativePayments(debt) && debt.amount > 0
    ensures OffersPayment(debt) <==> CurrentBalance(debt) > 0
    ensures Progress(debt) == 100.0 <==> CurrentBalance(debt) == 0
  {
    LedgerReplay(debt);
    ProgressBounds(debt);
  }

  /** A worked example: $5000.00 owed, $1000.00 paid leaves $4000.00
      and 20% progress; a further $4500.00 clamps the balance to zero at 100%. */
  lemma FiveThousandDollarExample()
    ensures var d0 := DebtRecord(7, Active, [], 0, 0, "Medical Center", 500000);
      var r1 := AddPayment([d0], PaymentForm(Some(7), Some(100000), true), 0, true);
      r1.request.Some? &&
      var d1 := d0.(payments := [r1.request.value.payment]);
      var r2 := AddPayment([d1], PaymentForm(Some(7), Some(450000), true), 0, true);
      r2.request.Some? &&
      var d2 := d1.(payments := d1.payments + [r2.request.value.payment]);
      && CurrentBalance(d1) == 400000 && Progress(d1) == 20.0
      && CurrentBalance(d2) == 0 && Progress(d2) == 100.0
  {
    var d0 := DebtRecord(7, Active, [], 0, 0, "Medical Center", 500000);
    Views.FindFirst([d0], (d: DebtRecord) => d.id == 7, 0);
    var p1 := DebtPayment(100000, 400000, 0);
    var d1 := d0.(payments := [p1]);
    Views.FindFirst([d1], (d: DebtRecord) => d.id == 7, 0);
    var p2 := DebtPayment(450000, 0, 0);
    var d2 := d1.(payments := [p1, p2]);
    assert TotalPaid(d1.payments) == 100000 by {
      Views.SumAppend([], p1, AmountPaid);
      assert [] + [p1] == [p1];
    }
    assert TotalPaid(d2.payments) == 550000 by {
      Views.SumAppend([p1], p2, AmountPaid);
      assert [p1] + [p2] == [p1, p2];
    }
  }

  /** One point of the balance chart: the starting amount or the balance after a
      numbered payment, in dollars. */
  datatype ChartLabel = Start | PaymentNumber(n: nat)
  datatype ChartPoint = ChartPoint(name: ChartLabel, balance: real)

  /** `getChartData`: the original amount, then the balance after each payment, in order. */
  method ChartData(debt: DebtRecord) returns (data: seq<ChartPoint>)
    ensures |data| == |debt.payments| + 1
    ensures data[0] == ChartPoint(Start, debt.amount as real / 100.0)
    ensures forall i :: 0 <= i < |debt.payments| ==>
      data[i + 1] == ChartPoint(PaymentNumber(i + 1), debt.payments[i].remainingBalance as real / 100.0)
    ensures data[|data| - 1].balance == CurrentBalance(debt) as real / 100.0
  {
    data := [ChartPoint(Start, debt.amount as real / 100.0)];
    var idx := 0;
    while idx < |debt.payments|
      invariant 0 <= idx <= |debt.payments|
      invariant |data| == idx + 1
      invariant data[0] == ChartPoint(Start, debt.amount as real / 100.0)
      invariant forall i :: 0 <= i < idx ==>
        data[i + 1] == ChartPoint(PaymentNumber(i + 1), debt.payments[i].remainingBalance as real / 100.0)
    {
      var payment := debt.payments[idx];
      data := data + [ChartPoint(PaymentNumber(idx + 1), payment.remainingBalance as real / 100.0)];
      idx := idx + 1;
    }
  }

  /** `payments.slice(-3).reverse()`: the three newest payments, newest first. */
  function RecentPayments(debt: DebtRecord): (r: seq<DebtPayment>)
    ensures |r| == Min(3, |debt.payments|)
    ensures forall i :: 0 <= i < |r| ==> r[i] == debt.payments[|debt.payments| - 1 - i]
  {
    Views.Recent(debt.payments, 3)
  }

  // ----- summary over all debts -----

  /** The summary strip, in dollars. */
  datatype DebtSummary = DebtSummary(totalOriginal: real, totalPaid: real, totalDebt: real)

  function Amount(d: DebtRecord): int {
    d.amount
  }

  /** How much of a debt's original amount its balance shows as paid down: nothing
      before the first payment, afterwards the total paid capped at the amount. */
  function PaidDown(d: DebtRecord): int {
    if d.payments == [] then 0 else Min(d.amount, TotalPaid(d.payments))
  }

  /** The summary totals: original amounts and current balances summed, paid as their difference. */
  function Summarize(debts: seq<DebtRecord>): DebtSummary {
    var totalDebt := Views.Sum(debts, CurrentBalance) as real / 100.0;
    var totalOriginal := Views.Sum(debts, Amount) as real / 100.0;
    DebtSummary(totalOriginal, totalOriginal - totalDebt, totalDebt)
  }

  ghost predicate AllReplayable(debts: seq<DebtRecord>) {
    forall i :: 0 <= i < |debts| ==> WellFormedLedger(debts[i]) && NonNegativePayments(debts[i])
  }

  /** Over well-formed ledgers "Total Paid" is the sum, debt by debt, of what was
      paid down (over-payments not counted). */
  lemma SummaryPaidIsPaidDown(debts: seq<DebtRecord>)
    requires AllReplayable(debts)
    ensures Summarize(debts).totalPaid == Views.Sum(debts, PaidDown) as real / 100.0
  {
    var owed := (d: DebtRecord) => d.amount - CurrentBalance(d);
    Views.SumDifference(debts, Amount, CurrentBalance, owed);
    forall i | 0 <= i < |debts|
      ensures owed(debts[i]) == PaidDown(debts[i])
    {
      LedgerReplay(debts[i]);
    }
    Views.SumCongruent(debts, owed, PaidDown);
  }

  /** With non-negative amounts, "Total Paid" lies between 0 and the original total. */
  lemma SummaryPaidBounds(debts: seq<DebtRecord>)
    requires AllReplayable(debts)
    requires forall i :: 0 <= i < |debts| ==> debts[i].amount >= 0
    ensures 0.0 <= Summarize(debts).totalPaid <= Summarize(debts).totalOriginal
  {
    SummaryPaidIsPaidDown(debts);
    forall i | 0 <= i < |debts|
      ensures 0 <= PaidDown(debts[i])
    {
      Views.SumNonNegative(debts[i].payments, AmountPaid);
    }
    Views.SumNonNegative(debts, PaidDown);
    var slack := (d: DebtRecord) => d.amount - PaidDown(d);
    Views.SumDifference(debts, Amount, PaidDown, slack);
    Views.SumNonNegative(debts, slack);
  }

  /** The add-debt form accepts a negative amount: a debt of -500.00 is stored with
      that balance, a payment of 100.00 raises the balance to 0, and "Total Paid"
      then reads -500.00. */
  lemma NegativeDebtAccepted()
    ensures var r := AddDebt(DebtForm("Clinic", Some(-50000), None, None, true), 0, true);
      r.request.Some? &&
      var d0 := Stored(r.request.value, 1);
      CurrentBalance(d0) == -50000 &&
      var r1 := AddPayment([d0], PaymentForm(Some(1), Some(10000), true), 0, true);
      r1.request.Some? &&
      var d1 := d0.(payments := [r1.request.value.payment]);
      && CurrentBalance(d1) == 0
      && Summarize([d1]).totalPaid == -500.0
  {
    var d0 := DebtRecord(1, Active, [], 0, 0, "Clinic", -50000);
    Views.FindFirst([d0], (d: DebtRecord) => d.id == 1, 0);
    var d1 := d0.(payments := [DebtPayment(10000, 0, 0)]);
    assert Views.Sum([d1], CurrentBalance) == 0 by {
      Views.SumAppend([], d1, CurrentBalance);
      assert [] + [d1] == [d1];
    }
    assert Views.Sum([d1], Amount) == -50000 by {
      Views.SumAppend([], d1, Amount);
      assert [] + [d1] == [d1];
    }
  }
}

=== FILE: domain.dfy ===
/** The records the remote wellness service exchanges with the client. Money is in
    integer cents, interest in basis points, times in nanoseconds since the epoch. */
module Domain {
  import opened Wrappers

  /** Nanoseconds since the epoch. */
  type Time = int

  /** Client timestamps are milliseconds; the service stores nanoseconds. */
  const NanosPerMilli: int := 1_000_000

  datatype DebtStatus = Active | Overdue(overdue: int) | PaidOff

  /** One ledger entry: what was paid and the balance left after it. */
  datatype DebtPayment = DebtPayment(amountPaid: int, remainingBalance: int, paymentDate: Time)

  datatype DebtRecord = DebtRecord(
    id: int,
    status: DebtStatus,
    payments: seq<DebtPayment>,
    dueDate: Time,
    interestRate: int,
    creditorName: string,
    amount: int)

  datatype MedicationAdherence = MedicationAdherence(taken: bool, notes: string, timestamp: Time)

  datatype MedicationRecord = MedicationRecord(
    id: int,
    endDate: Option<Time>,
    dosage: string,
    name: string,
    adherenceLogs: seq<MedicationAdherence>,
    frequency: string,
    timeOfDay: string,
    startDate: Time)

  datatype Badge = Badge(
    achieved: bool,
    achievedTimestamp: Option<Time>,
    name: string,
    pointsNeeded: int,
    description: string,
    progress: int)

  datatype WellnessPillar = WellnessPillar(name: string, progress: int)

  datatype Reward = Reward(source: string, description: string, rewardType: string, timestamp: Time)

  datatype MindfulnessActivity = MindfulnessActivity(duration: int, activityType: string, timestamp: Time)

  datatype JournalEntry = JournalEntry(content: string, timestamp: Time)

  datatype QuizResponse = QuizResponse(answer: string, questionId: string)

  /** The parts of the caller's profile the dashboard pages read. */
  datatype UserProfile = UserProfile(
    username: string,
    onboardingCompleted: bool,
    points: int,
    journalEntries: seq<JournalEntry>,
    mindfulnessActivities: seq<MindfulnessActivity>,
    badges: seq<Badge>,
    rewards: seq<Reward>,
    wellnessPillars: seq<WellnessPillar>,
    quizResponses: seq<QuizResponse>)
}

=== FILE: journal.dfy ===
/** The journal page: writing an entry and the newest-first list. */
module Journal {
  import opened Wrappers
  import opened Domain
  import Text
  import Views
  import Numbers

  /** The draft text and whether the writing dialog is open. */
  datatype JournalState = JournalState(draft: string, dialogOpen: bool)

  /** `handleSubmit`: nothing is sent while the draft trims to empty; otherwise the
      raw, untrimmed draft is saved, and it is cleared (and the dialog closed) only
      once the call has succeeded. */
  function Submit(st: JournalState, callSucceeds: bool): (r: Handled<string, JournalState>)
    ensures r.request.None? <==> Text.IsBlank(st.draft)
    ensures r.request.Some? ==> r.request.value == st.draft
    ensures r.state == if r.request.Some? && callSucceeds then JournalState("", false) else st
  {
    Text.TrimEmptyIffBlank(st.draft);
    if Text.Trim(st.draft) == "" then Handled(None, st)
    else Handled(Some(st.draft), if callSucceeds then JournalState("", false) else st)
  }

  /** The list: every stored entry, newest first. */
  function Displayed(profile: Option<UserProfile>): (r: seq<JournalEntry>)
    ensures profile.None? ==> r == []
    ensures profile.Some? ==>
      var es := profile.value.journalEntries;
      |r| == |es| && (forall i :: 0 <= i < |r| ==> r[i] == es[|es| - 1 - i])
      && multiset(r) == multiset(es)
  {
    if profile.None? then []
    else
      Views.ReversePermutes(profile.value.journalEntries);
      Views.Reverse(profile.value.journalEntries)
  }

  /** The overview's three recent entries are the head of this list. */
  lemma OverviewShowsHeadOfList(profile: UserProfile)
    ensures Views.Recent(profile.journalEntries, 3)
         == Displayed(Some(profile))[..Numbers.Min(3, |profile.journalEntries|)]
  {
    Views.RecentIsHeadOfReverse(profile.journalEntries, 3);
  }
}

=== FILE: medications.dfy ===
/** The medication manager: adding and editing medications, logging adherence,
    and the "last logged" line. */
module Medications {
  import opened Wrappers
  import opened Domain

  /** The four fields the add and edit dialogs share. */
  datatype MedicationForm = MedicationForm(name: string, dosage: string, frequency: string, timeOfDay: string)

  const DefaultForm: MedicationForm := MedicationForm("", "", "Daily", "Morning")

  /** Everything the component keeps between renders. */
  datatype MedState = MedState(
    form: MedicationForm,
    editing: Option<MedicationRecord>,
    selectedMedId: Option<int>,
    adherenceNotes: string,
    addOpen: bool,
    editOpen: bool,
    adherenceOpen: bool)

  const InitialState: MedState := MedState(DefaultForm, None, None, "", false, false, false)

  /** The arguments of the service's `addMedication`. */
  datatype NewMedication = NewMedication(
    name: string, dosage: string, frequency: string, timeOfDay: string,
    startDate: Time, endDate: Option<Time>)

  /** The arguments of the service's `updateMedication`. */
  datatype MedicationUpdate = MedicationUpdate(
    medicationId: int, name: string, dosage: string, frequency: string, timeOfDay: string,
    startDate: Time, endDate: Option<Time>)

  /** The arguments of the service's `logMedicationAdherence`. */
  datatype AdherenceRequest = AdherenceRequest(medicationId: int, taken: bool, notes: string)

  predicate FormFilled(f: MedicationForm) {
    f.name != "" && f.dosage != ""
  }

  /** `handleAddMedication`: refused without a name or dosage; starts now (in
      nanoseconds) with no end date. The form returns to its defaults and the
      dialog closes only once the call has succeeded. */
  function AddMedication(st: MedState, nowMs: int, callSucceeds: bool): (r: Handled<NewMedication, MedState>)
    ensures r.request.None? <==> !FormFilled(st.form)
    ensures r.request.Some? ==>
      var m := r.request.value;
      && MedicationForm(m.name, m.dosage, m.frequency, m.timeOfDay) == st.form
      && m.startDate == nowMs * NanosPerMilli
      && m.endDate.None?
    ensures r.state == if r.request.Some? && callSucceeds then st.(form := DefaultForm, addOpen := false) else st
  {
    if !FormFilled(st.form) then Handled(None, st)
    else
      var f := st.form;
      var m := NewMedication(f.name, f.dosage, f.frequency, f.timeOfDay, nowMs * NanosPerMilli, None);
      Handled(Some(m), if callSucceeds then st.(form := DefaultForm, addOpen := false) else st)
  }

  /** The record the service holds for a new medication, under whatever id it
      assigns, with an empty adherence log. */
  function StoredMedication(m: NewMedication, id: int): MedicationRecord {
    MedicationRecord(id, m.endDate, m.dosage, m.name, [], m.frequency, m.timeOfDay, m.startDate)
  }

  /** An added medication, opened for editing, puts back exactly the form that was
      submitted; saving it then keeps its start of now and sends no end date. */
  lemma AddedMedicationReopens(st: MedState, nowMs: int, ok: bool, id: int, later: MedState, ok2: bool)
    requires AddMedication(st, nowMs, ok).request.Some?
    ensures var med := StoredMedication(AddMedication(st, nowMs, ok).request.value, id);
      var editing := OpenEdit(later, med);
      var u := EditMedication(editing, ok2).request;
      && editing.form == st.form
      && u.Some? && u.value.medicationId == id
      && u.value.startDate == nowMs * NanosPerMilli && u.value.endDate.None?
  {
  }

  /** `editingMed.endDate || null`: a present end date is kept unless it is 0,
      which JavaScript reads as false and turns into null. */
  function KeptEndDate(endDate: Option<Time>): (r: Option<Time>)
    ensures r.Some? ==> r == endDate
    ensures r.None? <==> endDate.None? || endDate == Some(0)
  {
    if endDate.Some? && endDate.value != 0 then endDate else None
  }

  /** `openEditDialog`: remembers the record and copies its four editable fields into the form. */
  function OpenEdit(st: MedState, med: MedicationRecord): (r: MedState)
    ensures r.editing == Some(med) && r.editOpen
    ensures r.form == MedicationForm(med.name, med.dosage, med.frequency, med.timeOfDay)
    ensures r.selectedMedId == st.selectedMedId && r.adherenceNotes == st.adherenceNotes
  {
    st.(editing := Some(med),
        form := MedicationForm(med.name, med.dosage, med.frequency, med.timeOfDay),
        editOpen := true)
  }

  /** `handleEditMedication`: refused with no record being edited or without a name
      or dosage; otherwise the record's id and dates with the form's four fields. */
  function EditMedication(st: MedState, callSucceeds: bool): (r: Handled<MedicationUpdate, MedState>)
    ensures r.request.None? <==> st.editing.None? || !FormFilled(st.form)
    ensures r.request.Some? ==>
      var u := r.request.value;
      var med := st.editing.value;
      && u.medicationId == med.id
      && u.startDate == med.startDate
      && u.endDate == KeptEndDate(med.endDate)
      && MedicationForm(u.name, u.dosage, u.frequency, u.timeOfDay) == st.form
    ensures r.state == if r.request.Some? && callSucceeds
                       then st.(form := DefaultForm, editing := None, editOpen := false)
                       else st
  {
    if st.editing.None? || !FormFilled(st.form) then Handled(None, st)
    else
      var med := st.editing.value;
      var f := st.form;
      var u := MedicationUpdate(med.id, f.name, f.dosage, f.frequency, f.timeOfDay,
                                med.startDate, KeptEndDate(med.endDate));
      Handled(Some(u), if callSucceeds then st.(form := DefaultForm, editing := None, editOpen := false) else st)
  }

  /** The record as it reads once the service applies an update. */
  function ApplyUpdate(med: MedicationRecord, u: MedicationUpdate): MedicationRecord {
    med.(name := u.name, dosage := u.dosage, frequency := u.frequency, timeOfDay := u.timeOfDay,
         startDate := u.startDate, endDate := u.endDate)
  }

  /** Opening a record for editing and saving it untouched changes nothing but a
      zero end date: id, dates, adherence log and the four fields all come back. */
  lemma EditRoundTrip(st: MedState, med: MedicationRecord, ok: bool)
    requires med.name != "" && med.dosage != ""
    requires med.endDate != Some(0)
    ensures var r := EditMedication(OpenEdit(st, med), ok);
      r.request.Some? && r.request.value.medicationId == med.id
      && ApplyUpdate(med, r.request.value) == med
  {
  }

  /** `openAdherenceDialog`. */
  function OpenAdherence(st: MedState, medId: int): (r: MedState)
    ensures r.selectedMedId == Some(medId) && r.adherenceOpen
    ensures r.adherenceNotes == st.adherenceNotes && r.form == st.form
  {
    st.(selectedMedId := Some(medId), adherenceOpen := true)
  }

  /** `handleLogAdherence(taken)`: needs a selected medication; carries the flag and
      the notes unchanged. The dialog closes and clears only once the call has succeeded. */
  function LogAdherence(st: MedState, taken: bool, callSucceeds: bool): (r: Handled<AdherenceRequest, MedState>)
    ensures r.request.None? <==> st.selectedMedId.None?
    ensures r.request.Some? ==>
      r.request.value == AdherenceRequest(st.selectedMedId.value, taken, st.adherenceNotes)
    ensures r.state == if r.request.Some? && callSucceeds
                       then st.(adherenceOpen := false, selectedMedId := None, adherenceNotes := "")
                       else st
  {
    if st.selectedMedId.None? then Handled(None, st)
    else
      Handled(Some(AdherenceRequest(st.selectedMedId.value, taken, st.adherenceNotes)),
              if callSucceeds then st.(adherenceOpen := false, selectedMedId := None, adherenceNotes := "") else st)
  }

  /** The "Last logged" line: the time of the final adherence entry, hidden with no entries. */
  function LastLogged(med: MedicationRecord): (r: Option<Time>)
    ensures r.None? <==> med.adherenceLogs == []
    ensures r.Some? ==> exists i :: 0 <= i < |med.adherenceLogs| && med.adherenceLogs[i].timestamp == r.value
  {
    if |med.adherenceLogs| == 0 then None
    else Some(med.adherenceLogs[|med.adherenceLogs| - 1].timestamp)
  }

  /** The entry the service appends for an adherence request, at time `timestamp`. */
  function AdherenceEntry(q: AdherenceRequest, timestamp: Time): MedicationAdherence {
    MedicationAdherence(q.taken, q.notes, timestamp)
  }

  /** A logged dose, once appended to its medication's log, carries the button's
      flag and the typed notes and is what "Last logged" reports. */
  lemma LoggedDoseIsLast(st: MedState, taken: bool, ok: bool, med: MedicationRecord, timestamp: Time)
    requires LogAdherence(st, taken, ok).request.Some?
    ensures var q := LogAdherence(st, taken, ok).request.value;
      var logs := med.adherenceLogs + [AdherenceEntry(q, timestamp)];
      && q.medicationId == st.selectedMedId.value
      && logs[|logs| - 1].taken == taken && logs[|logs| - 1].notes == st.adherenceNotes
      && LastLogged(med.(adherenceLogs := logs)) == Some(timestamp)
  {
    var q := LogAdherence(st, taken, ok).request.value;
    LastLoggedAfterAppend(med, AdherenceEntry(q, timestamp));
  }

  /** Once an entry is appended to the log, it is the one "Last logged" reports. */
  lemma LastLoggedAfterAppend(med: MedicationRecord, entry: MedicationAdherence)
    ensures LastLogged(med.(adherenceLogs := med.adherenceLogs + [entry])) == Some(entry.timestamp)
  {
  }
}

=== FILE: mindfulness.dfy ===
/** The mindfulness page: logging an activity, the minute totals and the history. */
module Mindfulness {
  import opened Wrappers
  import opened Domain
  import Numbers
  import Views

  /** The log dialog: the chosen activity type and the typed duration (None while empty). */
  datatype ActivityForm = ActivityForm(activityType: string, duration: Option<int>, dialogOpen: bool)

  const ClosedActivityForm: ActivityForm := ActivityForm("", None, false)

  /** The arguments of the service's `addMindfulnessActivity`. */
  datatype ActivityRequest = ActivityRequest(activityType: string, duration: int)

  /** `handleSubmit`: sent only when both a type and a duration are given; the
      dialog is cleared and closed only once the call has succeeded. */
  function Submit(form: ActivityForm, callSucceeds: bool): (r: Handled<ActivityRequest, ActivityForm>)
    ensures r.request.None? <==> form.activityType == "" || form.duration.None?
    ensures r.request.Some? ==>
      r.request.value == ActivityRequest(form.activityType, form.duration.value)
    ensures r.state == if r.request.Some? && callSucceeds then ClosedActivityForm else form
  {
    if form.activityType == "" || form.duration.None? then Handled(None, form)
    else
      Handled(Some(ActivityRequest(form.activityType, form.duration.value)),
              if callSucceeds then ClosedActivityForm else form)
  }

  function Duration(a: MindfulnessActivity): int {
    a.duration
  }

  /** The activities of the profile, none while it is absent. */
  function Activities(profile: Option<UserProfile>): seq<MindfulnessActivity> {
    if profile.Some? then profile.value.mindfulnessActivities else []
  }

  /** `totalMinutes`: every duration summed, 0 with no profile. */
  function TotalMinutes(profile: Option<UserProfile>): (r: int)
    ensures Activities(profile) == [] ==> r == 0
  {
    Views.Sum(Activities(profile), Duration)
  }

  /** Logging an activity adds exactly its duration to the total. */
  lemma TotalGrowsByDuration(profile: Option<UserProfile>, a: MindfulnessActivity)
    ensures TotalMinutes(Some(AddActivity(profile, a))) == TotalMinutes(profile) + a.duration
  {
    Views.SumAppend(Activities(profile), a, Duration);
  }

  /** The activity list as it reads after the service appends activity `a`. With
      no profile the list is shown on a blank profile, a device that only serves to
      state `TotalGrowsByDuration` for every input; the store itself never produces
      that profile. */
  function AddActivity(profile: Option<UserProfile>, a: MindfulnessActivity): (p: UserProfile)
    ensures Activities(Some(p)) == Activities(profile) + [a]
  {
    var base := if profile.Some? then profile.value else UserProfile("", false, 0, [], [], [], [], [], []);
    base.(mindfulnessActivities := Activities(profile) + [a])
  }

  /** The activity the service stores for a submitted request, at time `timestamp`. */
  function Logged(q: ActivityRequest, timestamp: Time): MindfulnessActivity {
    MindfulnessActivity(q.duration, q.activityType, timestamp)
  }

  /** A successful submit, once stored, adds the typed duration to the total and
      heads the history with the typed activity. */
  lemma SubmitGrowsTotalAndHistory(profile: Option<UserProfile>, form: ActivityForm, ok: bool, timestamp: Time)
    requires Submit(form, ok).request.Some?
    ensures var a := Logged(Submit(form, ok).request.value, timestamp);
      var p := Some(AddActivity(profile, a));
      && TotalMinutes(p) == TotalMinutes(profile) + form.duration.value
      && History(p)[0] == MindfulnessActivity(form.duration.value, form.activityType, timestamp)
  {
    var a := Logged(Submit(form, ok).request.value, timestamp);
    TotalGrowsByDuration(profile, a);
  }

  /** The "Average Duration" card: the total over the count rounded as `Math.round`
      does, and 0 (no division) when there are no activities. */
  function AverageMinutes(profile: Option<UserProfile>): (r: int)
    ensures Activities(profile) == [] ==> r == 0
    ensures var n := |Activities(profile)|;
      n > 0 ==> 2 * n * r - n <= 2 * TotalMinutes(profile) < 2 * n * r + n
  {
    var n := |Activities(profile)|;
    if n > 0 then Numbers.RoundDiv(TotalMinutes(profile), n) else 0
  }

  /** The rounded average lies between the shortest and the longest duration. */
  lemma AverageWithinRange(profile: Option<UserProfile>, lo: int, hi: int)
    requires |Activities(profile)| > 0
    requires forall i :: 0 <= i < |Activities(profile)| ==>
      lo <= Activities(profile)[i].duration <= hi
    ensures lo <= AverageMinutes(profile) <= hi
  {
    var s := Activities(profile);
    Views.SumBounds(s, Duration, lo, hi);
    Numbers.RoundDivBetween(TotalMinutes(profile), |s|, lo, hi);
  }

  /** The history list: every activity, newest first. */
  function History(profile: Option<UserProfile>): (r: seq<MindfulnessActivity>)
    ensures var s := Activities(profile);
      && |r| == |s|
      && (forall i :: 0 <= i < |r| ==> r[i] == s[|s| - 1 - i])
      && multiset(r) == multiset(s)
  {
    var s := Activities(profile);
    Views.ReversePermutes(s);
    Views.Reverse(s)
  }
}

=== FILE: numbers.dfy ===
/** Exact counterparts of the JavaScript number operations the client applies to integer data. */
module Numbers {

  function Min(a: int, b: int): int {
    if a <= b then a else b
  }

  function Max(a: int, b: int): int {
    if a >= b then a else b
  }

  /** `Math.round(n / d)` for integers `n` and `d > 0`, computed exactly:
      the integer nearest to the quotient, a tie going up (towards +infinity). */
  function RoundDiv(n: int, d: int): (r: int)
    requires d > 0
    ensures 2 * d * r - d <= 2 * n < 2 * d * r + d
  {
    (2 * n + d) / (2 * d)
  }

  /** Read over the rationals: `r - 1/2 <= n/d < r + 1/2`, which is what `Math.round` promises. */
  lemma RoundDivNearest(n: int, d: int)
    requires d > 0
    ensures var r := RoundDiv(n, d) as real;
      r - 0.5 <= n as real / d as real < r + 0.5
  {
    var r := RoundDiv(n, d);
    var dr := d as real;
    var q := n as real / dr;
    assert q * dr == n as real;
    var lo := (r as real - 0.5) * dr;
    var hi := (r as real + 0.5) * dr;
    assert 2.0 * lo == (2 * d * r - d) as real by {
      CastMul(d, r);
    }
    assert 2.0 * hi == (2 * d * r + d) as real by {
      CastMul(d, r);
    }
    assert lo <= q * dr < hi;
    LessByPositive(r as real - 0.5, q, dr);
    StrictLessByPositive(q, r as real + 0.5, dr);
  }

  lemma CastMul(a: int, b: int)
    ensures (a * b) as real == a as real * b as real
  {
  }

  /** Rounding is determined: no other integer lies within one half of the quotient. */
  lemma RoundDivUnique(n: int, d: int, k: int)
    requires d > 0
    requires 2 * d * k - d <= 2 * n < 2 * d * k + d
    ensures k == RoundDiv(n, d)
  {
    var r := RoundDiv(n, d);
    if k < r {
      MulLess(k + 1, r, 2 * d);
      assert false;
    } else if k > r {
      MulLess(r + 1, k, 2 * d);
      assert false;
    }
  }

  /** Rounding a quotient that lies between two integers stays between them. */
  lemma RoundDivBetween(n: int, d: int, lo: int, hi: int)
    requires d > 0
    requires lo * d <= n <= hi * d
    ensures lo <= RoundDiv(n, d) <= hi
  {
    var r := RoundDiv(n, d);
    if r < lo {
      MulLess(r + 1, lo, 2 * d);
      MulLess(r + 1, lo, d);
      assert false;
    }
    if r > hi {
      MulLess(hi + 1, r, 2 * d);
      MulLess(hi + 1, r, d);
      assert false;
    }
  }

  lemma MulLess(a: int, b: int, c: int)
    requires a <= b && c > 0
    ensures a * c <= b * c
  {
  }

  lemma LessByPositive(a: real, b: real, c: real)
    requires c > 0.0
    requires a * c <= b * c
    ensures a <= b
  {
  }

  lemma StrictLessByPositive(a: real, b: real, c: real)
    requires c > 0.0
    requires a * c < b * c
    ensures a < b
  {
  }
}

=== FILE: onboarding.dfy ===
/** The onboarding flow: a baseline photo, then the five-question quiz, then a
    completion screen that hands over to the dashboard. */
module Onboarding {
  import opened Wrappers
  import opened Questionnaire

  datatype Stage = PhotoStep | QuizStep | CompleteStep

  /** Steps only move forward, in this order. */
  function Rank(s: Stage): nat {
    match s
    case PhotoStep => 0
    case QuizStep => 1
    case CompleteStep => 2
  }

  /** The component's state: the step, the question being asked, the draft answers
      keyed by question id, and whether a photo file has been chosen. */
  datatype State = State(step: Stage, currentQuestion: nat, answers: map<string, string>, photoSelected: bool)

  const Initial: State := State(PhotoStep, 0, map[], false)

  const BaselineDescription: string := "Baseline progress photo"

  /** The remote calls the flow makes. */
  datatype Request =
    | UploadPhoto(description: string, isBaseline: bool)
    | SaveResponse(questionId: string, answer: string)
    | CompleteOnboarding

  /** What the user can do; each only where its page renders it. */
  datatype Event =
    | ChoosePhoto(fileChosen: bool)
    | ClearPhoto
    | UploadClicked
    | EditAnswer(text: string)
    | NextClicked
    | EnterDashboard

  /** What holds in every reachable state. */
  ghost predicate Inv(st: State) {
    && st.currentQuestion < |Questions|
    && (st.step == PhotoStep ==> st.currentQuestion == 0)
    && (Id(st.currentQuestion) in st.answers ==>
          Admissible(Questions[st.currentQuestion], st.answers[Id(st.currentQuestion)]))
  }

  /** `handlePhotoSelect`: a chosen file is remembered; dismissing the picker keeps the previous one. */
  function ChoosePhoto(st: State, fileChosen: bool): (r: State)
    ensures r.photoSelected == (st.photoSelected || fileChosen)
    ensures r.step == st.step && r.currentQuestion == st.currentQuestion && r.answers == st.answers
  {
    if fileChosen then st.(photoSelected := true) else st
  }

  /** `handlePhotoUpload`: nothing without a chosen file; otherwise the photo goes up
      flagged as the baseline, and the flow moves to the quiz once the upload succeeds. */
  function HandlePhotoUpload(st: State, callSucceeds: bool): (r: Handled<Request, State>)
    ensures r.request.None? <==> !st.photoSelected
    ensures r.request.Some? ==> r.request.value == UploadPhoto(BaselineDescription, true)
    ensures r.state == if r.request.Some? && callSucceeds then st.(step := QuizStep) else st
  {
    if !st.photoSelected then Handled(None, st)
    else Handled(Some(UploadPhoto(BaselineDescription, true)), if callSucceeds then st.(step := QuizStep) else st)
  }

  /** The draft answer to the current question, empty when none was typed. */
  function CurrentAnswer(st: State): string
    requires st.currentQuestion < |Questions|
  {
    var id := Id(st.currentQuestion);
    if id in st.answers then st.answers[id] else ""
  }

  /** Typing or choosing an answer to the current question. */
  function EditCurrentAnswer(st: State, text: string): (r: State)
    requires st.currentQuestion < |Questions|
    ensures r.step == st.step && r.currentQuestion == st.currentQuestion
    ensures CurrentAnswer(r) == text
  {
    st.(answers := st.answers[Id(st.currentQuestion) := text])
  }

  /** `handleQuizNext`: nothing while the current answer is empty; otherwise the
      answer is saved, and once the save succeeds the flow advances to the next
      question with fresh drafts, or to completion after the last question. */
  function HandleQuizNext(st: State, callSucceeds: bool): (r: Handled<Request, State>)
    requires st.currentQuestion < |Questions|
    ensures r.request.None? <==> CurrentAnswer(st) == ""
    ensures r.request.Some? ==> r.request.value == SaveResponse(Id(st.currentQuestion), CurrentAnswer(st))
    ensures r.request.None? || !callSucceeds ==> r.state == st
    ensures r.request.Some? && callSucceeds && st.currentQuestion < LastIndex ==>
      r.state == st.(currentQuestion := st.currentQuestion + 1, answers := map[])
    ensures r.request.Some? && callSucceeds && st.currentQuestion == LastIndex ==>
      r.state == st.(step := CompleteStep)
  {
    var answer := CurrentAnswer(st);
    if answer == "" then Handled(None, st)
    else
      var req := SaveResponse(Id(st.currentQuestion), answer);
      if !callSucceeds then Handled(Some(req), st)
      else if st.currentQuestion < |Questions| - 1 then
        Handled(Some(req), st.(currentQuestion := st.currentQuestion + 1, answers := map[]))
      else Handled(Some(req), st.(step := CompleteStep))
  }

  /** One user action with the outcome of the call it makes. Actions the current
      step does not render are ignored. */
  function Step(st: State, ev: Event, callSucceeds: bool): (r: Handled<Request, State>)
    requires Inv(st)
    ensures Inv(r.state)
    ensures Rank(st.step) <= Rank(r.state.step) <= Rank(st.step) + 1
    ensures !callSucceeds ==> r.state.step == st.step && r.state.currentQuestion == st.currentQuestion
    ensures r.state.currentQuestion == st.currentQuestion
         || r.state.currentQuestion == st.currentQuestion + 1
  {
    match st.step
    case PhotoStep =>
      (match ev
       case ChoosePhoto(chosen) => Handled(None, ChoosePhoto(st, chosen))
       case ClearPhoto => Handled(None, st.(photoSelected := false))
       case UploadClicked => HandlePhotoUpload(st, callSucceeds)
       case _ => Handled(None, st))
    case QuizStep =>
      (match ev
       case EditAnswer(text) =>
         if Admissible(Questions[st.currentQuestion], text) then Handled(None, EditCurrentAnswer(st, text))
         else Handled(None, st)
       case NextClicked => HandleQuizNext(st, callSucceeds)
       case _ => Handled(None, st))
    case CompleteStep =>
      (match ev
       case EnterDashboard => Handled(Some(CompleteOnboarding), st)
       case _ => Handled(None, st))
  }

  /** Every answer the flow saves is one its question's input can produce: a
      choice question is only ever answered with one of its options. */
  lemma SavedAnswersAdmissible(st: State, ev: Event, ok: bool)
    requires Inv(st)
    ensures var r := Step(st, ev, ok);
      r.request.Some? && r.request.value.SaveResponse? ==>
        exists i :: 0 <= i < |Questions| && Id(i) == r.request.value.questionId
          && Admissible(Questions[i], r.request.value.answer)
  {
    var r := Step(st, ev, ok);
    if r.request.Some? && r.request.value.SaveResponse? {
      assert Id(st.currentQuestion) == r.request.value.questionId;
    }
  }

  /** How many questions have been answered and saved, as the state shows it. */
  function Answered(st: State): nat {
    if st.step == CompleteStep then |Questions| else st.currentQuestion
  }

  /** Did this action save a quiz answer successfully? */
  predicate SavedAnswer(st: State, ev: Event, callSucceeds: bool)
    requires Inv(st)
  {
    callSucceeds && Step(st, ev, callSucceeds).request.Some?
    && Step(st, ev, callSucceeds).request.value.SaveResponse?
  }

  /** Each successful save moves the count of answered questions on by one, and
      nothing else moves it. */
  lemma StepCountsAnswers(st: State, ev: Event, ok: bool)
    requires Inv(st)
    ensures Answered(Step(st, ev, ok).state) == Answered(st) + (if SavedAnswer(st, ev, ok) then 1 else 0)
  {
  }

  /** The state after a sequence of actions, each paired with its call's outcome. */
  function Run(st: State, actions: seq<(Event, bool)>): (r: State)
    requires Inv(st)
    ensures Inv(r)
    ensures Rank(st.step) <= Rank(r.step)
    decreases |actions|
  {
    if actions == [] then st
    else Run(Step(st, actions[0].0, actions[0].1).state, actions[1..])
  }

  /** How many actions of a run saved an answer successfully. */
  function SavesIn(st: State, actions: seq<(Event, bool)>): nat
    requires Inv(st)
    decreases |actions|
  {
    if actions == [] then 0
    else
      (if SavedAnswer(st, actions[0].0, actions[0].1) then 1 else 0)
      + SavesIn(Step(st, actions[0].0, actions[0].1).state, actions[1..])
  }

  /** Over any run the answered count grows by exactly the number of successful saves. */
  lemma {:induction false} RunCountsAnswers(st: State, actions: seq<(Event, bool)>)
    requires Inv(st)
    ensures Answered(Run(st, actions)) == Answered(st) + SavesIn(st, actions)
    decreases |actions|
  {
    if actions != [] {
      StepCountsAnswers(st, actions[0].0, actions[0].1);
      RunCountsAnswers(Step(st, actions[0].0, actions[0].1).state, actions[1..]);
    }
  }

  /** The flow starts on the photo step at the first question, and it reaches the
      completion screen only after exactly five answers were saved successfully. */
  lemma CompletionTakesFiveSaves(actions: seq<(Event, bool)>)
    ensures Inv(Initial) && Initial.step == PhotoStep && Initial.currentQuestion == 0
    ensures Run(Initial, actions).step == CompleteStep ==> SavesIn(Initial, actions) == 5
  {
    RunCountsAnswers(Initial, actions);
  }

  /** The header bar: step 1 of 2 on the photo page, 2 of 2 afterwards. */
  function HeaderProgress(step: Stage): (r: real)
    ensures r == if step == PhotoStep then 50.0 else 100.0
  {
    var stepNumber := if step == PhotoStep then 1 else 2;
    (stepNumber as real / 2.0) * 100.0
  }

  /** The quiz page's bar: half for the photo, the other half shared by the questions. */
  function QuizBar(question: nat): (r: real)
    requires question < |Questions|
    ensures r == (50 + 10 * (question + 1)) as real
    ensures 60.0 <= r <= 100.0
  {
    var quizProgress := ((question + 1) as real / |Questions| as real) * 100.0;
    50.0 + quizProgress / 2.0
  }
}

=== FILE: overview.dfy ===
/** The overview page: overall pillar progress and the most recent activity. */
module Overview {
  import opened Domain
  import Numbers
  import Views

  function PillarProgress(p: WellnessPillar): int {
    p.progress
  }

  /** `totalProgress`: the equal-weight mean of the pillars' progress values. The
      source divides by the pillar count unguarded, so the pillar list must not be empty. */
  function TotalProgress(profile: UserProfile): (r: real)
    requires |profile.wellnessPillars| > 0
    ensures r * |profile.wellnessPillars| as real
      == Views.Sum(profile.wellnessPillars, PillarProgress) as real
  {
    Views.Sum(profile.wellnessPillars, PillarProgress) as real / |profile.wellnessPillars| as real
  }

  /** Pillar values within [0, 100] give an overall mean within [0, 100]. */
  lemma TotalProgressBounded(profile: UserProfile)
    requires |profile.wellnessPillars| > 0
    requires forall i :: 0 <= i < |profile.wellnessPillars| ==>
      0 <= profile.wellnessPillars[i].progress <= 100
    ensures 0.0 <= TotalProgress(profile) <= 100.0
  {
    var ps := profile.wellnessPillars;
    var n := |ps| as real;
    Views.SumBounds(ps, PillarProgress, 0, 100);
    var m := TotalProgress(profile);
    Numbers.LessByPositive(0.0, m, n);
    Numbers.LessByPositive(m, 100.0, n);
  }

  /** The percentage printed on the card: `Math.round(totalProgress)`. */
  function DisplayedProgress(profile: UserProfile): (r: int)
    requires |profile.wellnessPillars| > 0
  {
    Numbers.RoundDiv(Views.Sum(profile.wellnessPillars, PillarProgress), |profile.wellnessPillars|)
  }

  /** The printed percentage is the mean rounded to the nearest integer, and stays
      in [0, 100] when every pillar does. */
  lemma DisplayedProgressIsRoundedMean(profile: UserProfile)
    requires |profile.wellnessPillars| > 0
    ensures var d := DisplayedProgress(profile) as real;
      d - 0.5 <= TotalProgress(profile) < d + 0.5
    ensures (forall i :: 0 <= i < |profile.wellnessPillars| ==>
               0 <= profile.wellnessPillars[i].progress <= 100)
            ==> 0 <= DisplayedProgress(profile) <= 100
  {
    var ps := profile.wellnessPillars;
    Numbers.RoundDivNearest(Views.Sum(ps, PillarProgress), |ps|);
    if forall i :: 0 <= i < |ps| ==> 0 <= ps[i].progress <= 100 {
      Views.SumBounds(ps, PillarProgress, 0, 100);
      Numbers.RoundDivBetween(Views.Sum(ps, PillarProgress), |ps|, 0, 100);
    }
  }

  /** "Recent Journal Entries": the three newest entries, newest first. */
  function RecentJournal(profile: UserProfile): (r: seq<JournalEntry>)
    ensures |r| == Numbers.Min(3, |profile.journalEntries|)
    ensures forall i :: 0 <= i < |r| ==>
      r[i] == profile.journalEntries[|profile.journalEntries| - 1 - i]
  {
    Views.Recent(profile.journalEntries, 3)
  }

  /** "Recent Mindfulness": the three newest activities, newest first. */
  function RecentMindfulness(profile: UserProfile): (r: seq<MindfulnessActivity>)
    ensures |r| == Numbers.Min(3, |profile.mindfulnessActivities|)
    ensures forall i :: 0 <= i < |r| ==>
      r[i] == profile.mindfulnessActivities[|profile.mindfulnessActivities| - 1 - i]
  {
    Views.Recent(profile.mindfulnessActivities, 3)
  }
}

=== FILE: pillar_activity.dfy ===
/** A pillar page: logging an activity for points, and the pillar's displayed progress. */
module PillarActivity {
  import opened Wrappers
  import opened Domain
  import Text
  import Views

  const ActivityScore: int := 10
  const ReflectionBonus: int := 5
  const ReflectionSeparator: string := " | Reflection: "

  /** The activity logger's two text areas. */
  datatype LogForm = LogForm(activityLog: string, reflection: string)

  /** The arguments of the service's `manageRewards`. */
  datatype RewardRequest = RewardRequest(
    category: string,
    activityScore: int,
    reflectionScore: int,
    categoryScore: int,
    categoryDescription: string)

  /** `handleLogActivity` on the page of the pillar whose display name is `pillarName`:
      nothing is sent when the activity trims to empty; otherwise 10 points for the
      activity plus 5 when the trimmed reflection is non-empty, described by the
      activity text followed, when the reflection is not the empty string, by the
      reflection. Both fields are cleared only once the call has succeeded. */
  function LogActivity(pillarName: string, form: LogForm, callSucceeds: bool)
    : (r: Handled<RewardRequest, LogForm>)
    ensures r.request.None? <==> Text.IsBlank(form.activityLog)
    ensures r.request.Some? ==>
      var q := r.request.value;
      && q.category == pillarName
      && q.activityScore == ActivityScore
      && (q.reflectionScore == ReflectionBonus <==> !Text.IsBlank(form.reflection))
      && (q.reflectionScore == 0 <==> Text.IsBlank(form.reflection))
      && q.categoryScore == q.activityScore + q.reflectionScore
      && |q.categoryDescription| >= |form.activityLog|
      && q.categoryDescription[..|form.activityLog|] == form.activityLog
    ensures r.state == if r.request.Some? && callSucceeds then LogForm("", "") else form
  {
    Text.TrimEmptyIffBlank(form.activityLog);
    Text.TrimEmptyIffBlank(form.reflection);
    if Text.Trim(form.activityLog) == "" then Handled(None, form)
    else
      var reflectionScore := if Text.Trim(form.reflection) != "" then ReflectionBonus else 0;
      var description :=
        form.activityLog + (if form.reflection != "" then ReflectionSeparator + form.reflection else "");
      var q := RewardRequest(pillarName, ActivityScore, reflectionScore, ActivityScore + reflectionScore, description);
      Handled(Some(q), if callSucceeds then LogForm("", "") else form)
  }

  /** Every logged activity is worth 10 or 15 points, 15 exactly with a reflection. */
  lemma ScoreIsTenOrFifteen(pillarName: string, form: LogForm, ok: bool)
    requires LogActivity(pillarName, form, ok).request.Some?
    ensures var score := LogActivity(pillarName, form, ok).request.value.categoryScore;
      (score == 10 || score == 15) && (score == 15 <==> !Text.IsBlank(form.reflection))
  {
  }

  /** The description carries the reflection exactly when it is a non-empty string:
      a whitespace-only reflection is appended but earns no bonus. */
  lemma DescriptionCarriesReflection(pillarName: string, form: LogForm, ok: bool)
    requires LogActivity(pillarName, form, ok).request.Some?
    ensures var q := LogActivity(pillarName, form, ok).request.value;
      && (form.reflection == "" ==> q.categoryDescription == form.activityLog)
      && (form.reflection != "" ==>
            q.categoryDescription[|form.activityLog|..] == ReflectionSeparator + form.reflection)
  {
  }

  /** A whitespace-only reflection, such as a single space, is appended to the
      description but earns no bonus. */
  lemma BlankReflectionAppendedUnrewarded(pillarName: string, form: LogForm, ok: bool)
    requires !Text.IsBlank(form.activityLog)
    requires form.reflection != "" && Text.IsBlank(form.reflection)
    ensures var q := LogActivity(pillarName, form, ok).request;
      && q.Some? && q.value.categoryScore == ActivityScore
      && q.value.categoryDescription == form.activityLog + (ReflectionSeparator + form.reflection)
  {
    var r := LogActivity(pillarName, form, ok);
    DescriptionCarriesReflection(pillarName, form, ok);
    JoinedDescription(r.request.value.categoryDescription, form.activityLog, ReflectionSeparator + form.reflection);
  }

  /** A description that starts with `log` and continues with `rest` is their concatenation. */
  lemma JoinedDescription(d: string, log: string, rest: string)
    requires |d| >= |log| && d[..|log|] == log && d[|log|..] == rest
    ensures d == log + rest
  {
    Views.SplitAt(d, |log|);
  }


  /** The progress shown in the page header: that of the first profile pillar with
      the page's display name, 0 when there is no profile or no such pillar. */
  function CurrentProgress(profile: Option<UserProfile>, pillarName: string): (r: int)
    ensures profile.None? ==> r == 0
    ensures profile.Some? ==>
      var ps := profile.value.wellnessPillars;
      && ((forall i :: 0 <= i < |ps| ==> ps[i].name != pillarName) ==> r == 0)
      && (forall i ::
            (0 <= i < |ps| && ps[i].name == pillarName && forall j :: 0 <= j < i ==> ps[j].name != pillarName)
            ==> r == ps[i].progress)
  {
    if profile.None? then 0
    else
      var ps := profile.value.wellnessPillars;
      var found := Views.Find(ps, (p: WellnessPillar) => p.name == pillarName);
      if found.None? then 0
      else
        forall i | 0 <= i < |ps| && ps[i].name == pillarName && (forall j :: 0 <= j < i ==> ps[j].name != pillarName)
          ensures found.value == ps[i]
        {
          Views.FindFirst(ps, (p: WellnessPillar) => p.name == pillarName, i);
        }
        found.value.progress
  }
}

=== FILE: questionnaire.dfy ===
/** The five-question wellness quiz asked during onboarding and on the quiz page
    (the two pages carry identical copies of the list). */
module Questionnaire {

  datatype QuestionKind = FreeText | Choice(options: seq<string>)

  datatype Question = Question(id: string, kind: QuestionKind)

  const Questions: seq<Question> := [
    Question("condition", FreeText),
    Question("duration", Choice(["Less than 6 months", "6 months - 1 year", "1-3 years", "More than 3 years"])),
    Question("goals", FreeText),
    Question("challenges", FreeText),
    Question("support", Choice(["Emotional support", "Practical guidance", "Community connection", "All of the above"]))
  ]

  /** The index of the last question. */
  const LastIndex: nat := |Questions| - 1

  function Id(i: nat): string
    requires i < |Questions|
  {
    Questions[i].id
  }

  /** An answer the current question's input can produce: any text for a free-text
      question, one of the options for a choice question. */
  predicate Admissible(q: Question, text: string) {
    q.kind.FreeText? || text in q.kind.options
  }

  /** The question ids are pairwise distinct. */
  lemma IdsDistinct()
    ensures |Questions| == 5 && LastIndex == 4
    ensures forall i, j :: 0 <= i < j < |Questions| ==> Id(i) != Id(j)
  {
  }
}

=== FILE: quiz.dfy ===
/** The dashboard's quiz page: stepping through the questions, the completion
    check against the saved responses, and the percentage shown. */
module Quiz {
  import opened Wrappers
  import opened Domain
  import opened Questionnaire
  import Numbers

  /** The question being shown and the draft answers keyed by question id. */
  datatype QuizState = QuizState(currentQuestion: nat, answers: map<string, string>)

  const Initial: QuizState := QuizState(0, map[])

  ghost predicate Inv(st: QuizState) {
    st.currentQuestion < |Questions|
  }

  /** The draft answer to the shown question, empty when none was given. */
  function CurrentAnswer(st: QuizState): string
    requires Inv(st)
  {
    var id := Id(st.currentQuestion);
    if id in st.answers then st.answers[id] else ""
  }

  /** Typing into the text area or picking a radio option; a choice question's
      input can only produce one of its options. */
  function EditAnswer(st: QuizState, text: string): (r: QuizState)
    requires Inv(st)
    ensures Inv(r) && r.currentQuestion == st.currentQuestion
    ensures CurrentAnswer(r) == if Admissible(Questions[st.currentQuestion], text) then text else CurrentAnswer(st)
  {
    if Admissible(Questions[st.currentQuestion], text)
    then st.(answers := st.answers[Id(st.currentQuestion) := text])
    else st
  }

  predicate IsLastQuestion(st: QuizState) {
    st.currentQuestion == LastIndex
  }

  /** `handleNext`: nothing while the answer is empty; otherwise it is saved, and
      once the save succeeds the page moves to the next question with fresh drafts.
      On the last question the page stays where it is. */
  function HandleNext(st: QuizState, callSucceeds: bool): (r: Handled<QuizResponse, QuizState>)
    requires Inv(st)
    ensures Inv(r.state)
    ensures r.request.None? <==> CurrentAnswer(st) == ""
    ensures r.request.Some? ==> r.request.value == QuizResponse(CurrentAnswer(st), Id(st.currentQuestion))
    ensures r.state == if r.request.Some? && callSucceeds && !IsLastQuestion(st)
                       then QuizState(st.currentQuestion + 1, map[])
                       else st
  {
    var answer := CurrentAnswer(st);
    if answer == "" then Handled(None, st)
    else
      var req := QuizResponse(answer, Id(st.currentQuestion));
      if callSucceeds && st.currentQuestion != LastIndex
      then Handled(Some(req), QuizState(st.currentQuestion + 1, map[]))
      else Handled(Some(req), st)
  }

  /** `handlePrevious`: back one question with fresh drafts; nothing on the first. */
  function HandlePrevious(st: QuizState): (r: QuizState)
    requires Inv(st)
    ensures Inv(r)
    ensures st.currentQuestion == 0 ==> r == st
    ensures st.currentQuestion > 0 ==> r.currentQuestion + 1 == st.currentQuestion && r.answers == map[]
  {
    if st.currentQuestion > 0 then QuizState(st.currentQuestion - 1, map[]) else st
  }

  /** Going back after a successful step forward returns to the question just
      answered, with its draft cleared. */
  lemma PreviousAfterNext(st: QuizState, ok: bool)
    requires Inv(st)
    ensures var r := HandleNext(st, ok);
      r.state != st ==> HandlePrevious(r.state) == QuizState(st.currentQuestion, map[])
  {
  }

  /** The ids of the responses saved in the profile, in saved order; none without a profile. */
  function AnsweredIds(profile: Option<UserProfile>): (r: seq<string>)
    ensures profile.None? ==> r == []
    ensures profile.Some? ==>
      |r| == |profile.value.quizResponses|
      && forall i :: 0 <= i < |r| ==> r[i] == profile.value.quizResponses[i].questionId
  {
    if profile.None? then []
    else seq(|profile.value.quizResponses|, i requires 0 <= i < |profile.value.quizResponses| =>
               profile.value.quizResponses[i].questionId)
  }

  /** `qs.every(q => ids.includes(q.id))`. */
  function EveryIncluded(qs: seq<Question>, ids: seq<string>): (r: bool)
    ensures r <==> forall i :: 0 <= i < |qs| ==> qs[i].id in ids
  {
    if qs == [] then true
    else qs[0].id in ids && EveryIncluded(qs[1..], ids)
  }

  /** The page shows the completion card once every question has a saved response. */
  function AllQuestionsAnswered(profile: Option<UserProfile>): bool {
    EveryIncluded(Questions, AnsweredIds(profile))
  }

  /** Completion in terms of the saved responses: each of the five question ids is
      the id of some saved response, whatever the order and however many repeats. */
  lemma AllAnsweredIffEverySaved(profile: Option<UserProfile>)
    ensures AllQuestionsAnswered(profile) <==>
      profile.Some? && forall i :: 0 <= i < |Questions| ==>
        exists j :: 0 <= j < |profile.value.quizResponses| && profile.value.quizResponses[j].questionId == Id(i)
  {
    var ids := AnsweredIds(profile);
    if AllQuestionsAnswered(profile) {
      assert Questions[0].id in ids;
      forall i | 0 <= i < |Questions|
        ensures exists j :: 0 <= j < |profile.value.quizResponses| && profile.value.quizResponses[j].questionId == Id(i)
      {
        assert Questions[i].id in ids;
        var j :| 0 <= j < |ids| && ids[j] == Questions[i].id;
      }
    } else if profile.Some? {
      var i :| 0 <= i < |Questions| && Questions[i].id !in ids;
      forall j | 0 <= j < |profile.value.quizResponses|
        ensures profile.value.quizResponses[j].questionId != Id(i)
      {
        assert ids[j] == profile.value.quizResponses[j].questionId;
      }
      assert !exists j :: 0 <= j < |profile.value.quizResponses| && profile.value.quizResponses[j].questionId == Id(i);
      assert !forall k :: 0 <= k < |Questions| ==>
        exists j :: 0 <= j < |profile.value.quizResponses| && profile.value.quizResponses[j].questionId == Id(k);
    }
  }

  /** Saving another response never takes completion away. */
  lemma AnsweredStaysAnswered(profile: UserProfile, response: QuizResponse)
    ensures AllQuestionsAnswered(Some(profile)) ==>
      AllQuestionsAnswered(Some(profile.(quizResponses := profile.quizResponses + [response])))
  {
    var p' := profile.(quizResponses := profile.quizResponses + [response]);
    if AllQuestionsAnswered(Some(profile)) {
      forall i | 0 <= i < |Questions|
        ensures Questions[i].id in AnsweredIds(Some(p'))
      {
        assert Questions[i].id in AnsweredIds(Some(profile));
        var j :| 0 <= j < |AnsweredIds(Some(profile))| && AnsweredIds(Some(profile))[j] == Questions[i].id;
        assert AnsweredIds(Some(p'))[j] == Questions[i].id;
      }
    }
  }

  /** "n% Complete": `Math.round((n + 1) / 5 * 100)`, which is exactly 20 per question. */
  function PercentComplete(st: QuizState): (r: int)
    requires Inv(st)
    ensures r == 20 * (st.currentQuestion + 1)
    ensures 20 <= r <= 100
  {
    Numbers.RoundDivUnique(100 * (st.currentQuestion + 1), |Questions|, 20 * (st.currentQuestion + 1));
    Numbers.RoundDiv(100 * (st.currentQuestion + 1), |Questions|)
  }

  /** What the page renders. */
  datatype QuizView = CompletionCard | QuestionCard(index: nat)

  /** As written, the completion card replaces the questions whenever every
      question has a saved response, whatever the page's own state. */
  function View(profile: Option<UserProfile>, st: QuizState): (r: QuizView)
    ensures r == CompletionCard <==> AllQuestionsAnswered(profile)
    ensures r.QuestionCard? ==> r.index == st.currentQuestion
  {
    if AllQuestionsAnswered(profile) then CompletionCard else QuestionCard(st.currentQuestion)
  }

  /** The completion card's "Review Questions" button as written: it only resets the index. */
  function ReviewAsWritten(st: QuizState): (r: QuizState)
    ensures r.currentQuestion == 0 && r.answers == st.answers
  {
    st.(currentQuestion := 0)
  }

  /** As written, "Review Questions" leaves the completion card on screen: the
      card depends on the saved responses only, which the button does not touch. */
  lemma ReviewAsWrittenStaysOnCard(profile: Option<UserProfile>, st: QuizState)
    requires AllQuestionsAnswered(profile)
    ensures View(profile, st) == CompletionCard
    ensures View(profile, ReviewAsWritten(st)) == CompletionCard
  {
  }

  /** The page state with the flag the button evidently means to set. */
  datatype ReviewingState = ReviewingState(quiz: QuizState, reviewing: bool)

  /** The corrected page: while reviewing, the questions show even when all are answered. */
  function CorrectedView(profile: Option<UserProfile>, rs: ReviewingState): (r: QuizView)
    ensures !rs.reviewing ==> r == View(profile, rs.quiz)
    ensures rs.reviewing ==> r == QuestionCard(rs.quiz.currentQuestion)
  {
    if AllQuestionsAnswered(profile) && !rs.reviewing then CompletionCard
    else QuestionCard(rs.quiz.currentQuestion)
  }

  /** The corrected "Review Questions": back to the first question, in review mode. */
  function Review(rs: ReviewingState): (r: ReviewingState)
    ensures Inv(r.quiz) && r.quiz.currentQuestion == 0 && r.reviewing
  {
    ReviewingState(QuizState(0, map[]), true)
  }

  /** With the correction the button does what it says: the first question shows,
      while everything else the page shows is unchanged when not reviewing. */
  lemma ReviewShowsFirstQuestion(profile: Option<UserProfile>, rs: ReviewingState)
    ensures CorrectedView(profile, Review(rs)) == QuestionCard(0)
    ensures CorrectedView(profile, rs.(reviewing := false)) == View(profile, rs.quiz)
  {
  }
}

=== FILE: rewards.dfy ===
/** The rewards page: badges split by achievement, badge progress, recent rewards
    and the premium content unlocked by points. */
module Rewards {
  import opened Domain
  import Numbers
  import Views

  predicate IsAchieved(b: Badge) {
    b.achieved
  }

  predicate IsInProgress(b: Badge) {
    !b.achieved
  }

  /** `badges.filter(b => b.achieved)`. */
  function AchievedBadges(badges: seq<Badge>): (r: seq<Badge>)
    ensures forall i :: 0 <= i < |r| ==> r[i].achieved && r[i] in badges
    ensures forall i :: 0 <= i < |badges| && badges[i].achieved ==> badges[i] in r
  {
    Views.Filter(badges, IsAchieved)
  }

  /** `badges.filter(b => !b.achieved)`. */
  function InProgressBadges(badges: seq<Badge>): (r: seq<Badge>)
    ensures forall i :: 0 <= i < |r| ==> !r[i].achieved && r[i] in badges
    ensures forall i :: 0 <= i < |badges| && !badges[i].achieved ==> badges[i] in r
  {
    Views.Filter(badges, IsInProgress)
  }

  /** The two lists partition the badges: each badge lands in exactly one list, as
      often as it occurs, the counts add up to the total ("n out of N badges"), and
      both lists keep the badges' original order. */
  lemma BadgesPartition(badges: seq<Badge>)
    ensures multiset(AchievedBadges(badges)) + multiset(InProgressBadges(badges)) == multiset(badges)
    ensures |AchievedBadges(badges)| + |InProgressBadges(badges)| == |badges|
    ensures forall b :: b in badges ==> (b in AchievedBadges(badges) <==> b !in InProgressBadges(badges))
    ensures Views.IsSubsequence(AchievedBadges(badges), badges)
    ensures Views.IsSubsequence(InProgressBadges(badges), badges)
  {
    Views.FilterPartition(badges, IsAchieved, IsInProgress);
    Views.FilterKeepsOrder(badges, IsAchieved);
    Views.FilterKeepsOrder(badges, IsInProgress);
  }

  /** The in-progress bar: points as a percentage of the badge's threshold, not
      capped. A zero threshold would divide by zero, so it is required positive. */
  function BadgeProgress(points: int, badge: Badge): (r: real)
    requires badge.pointsNeeded > 0
    ensures r * badge.pointsNeeded as real == 100.0 * points as real
  {
    (points as real / badge.pointsNeeded as real) * 100.0
  }

  /** The bar reaches 100 exactly when the points reach the badge's threshold. */
  lemma BadgeProgressFull(points: int, badge: Badge)
    requires badge.pointsNeeded > 0
    ensures BadgeProgress(points, badge) >= 100.0 <==> points >= badge.pointsNeeded
  {
    var n := badge.pointsNeeded as real;
    var r := BadgeProgress(points, badge);
    if points >= badge.pointsNeeded {
      Numbers.LessByPositive(100.0, r, n);
    }
  }

  /** The bar is not clamped: 250 points against a 100-point badge reads 250. */
  lemma BadgeProgressCanExceedHundred()
    ensures BadgeProgress(250, Badge(false, Wrappers.None, "Starter", 100, "", 0)) == 250.0
  {
  }

  /** "Recent Rewards": the ten newest rewards, newest first. */
  function RecentRewards(profile: UserProfile): (r: seq<Reward>)
    ensures |r| == Numbers.Min(10, |profile.rewards|)
    ensures forall i :: 0 <= i < |r| ==> r[i] == profile.rewards[|profile.rewards| - 1 - i]
  {
    Views.Recent(profile.rewards, 10)
  }

  /** The premium content listed on the page, in unlocking order. */
  datatype PremiumTier = SkincareGuide | NutritionPlan | ExpertConsultation

  function Threshold(t: PremiumTier): int {
    match t
    case SkincareGuide => 100
    case NutritionPlan => 200
    case ExpertConsultation => 400
  }

  function Rank(t: PremiumTier): nat {
    match t
    case SkincareGuide => 0
    case NutritionPlan => 1
    case ExpertConsultation => 2
  }

  /** A tier shows as unlocked once the points reach its threshold. */
  predicate Unlocked(points: int, t: PremiumTier) {
    points >= Threshold(t)
  }

  /** Unlocking is cumulative: a higher tier unlocked means every lower tier is, and
      more points never lock a tier again. */
  lemma TiersNested(points: int, points': int, t: PremiumTier, u: PremiumTier)
    requires Rank(u) <= Rank(t)
    ensures Unlocked(points, t) ==> Unlocked(points, u)
    ensures points <= points' && Unlocked(points, t) ==> Unlocked(points', t)
  {
  }
}

=== FILE: text.dfy ===
/** String helpers with the semantics of the JavaScript built-ins the client uses. */
module Text {

  /** The characters `String.prototype.trim` removes: the ECMAScript WhiteSpace
      and LineTerminator code points. */
  predicate IsWhitespace(c: char) {
    || c == '\t' || c == '\n' || c == '\U{000B}' || c == '\U{000C}' || c == '\r' || c == ' '
    || c == '\U{00A0}' || c == '\U{1680}' || ('\U{2000}' <= c <= '\U{200A}')
    || c == '\U{2028}' || c == '\U{2029}' || c == '\U{202F}' || c == '\U{205F}'
    || c == '\U{3000}' || c == '\U{FEFF}'
  }

  /** A string every character of which is whitespace (the empty string included). */
  ghost predicate IsBlank(s: string) {
    forall i :: 0 <= i < |s| ==> IsWhitespace(s[i])
  }

  /** `s.trimStart()`: the suffix left after dropping leading whitespace. */
  function TrimStart(s: string): (r: string)
    ensures |r| <= |s| && r == s[|s| - |r|..]
    ensures r == [] || !IsWhitespace(r[0])
    ensures forall i :: 0 <= i < |s| - |r| ==> IsWhitespace(s[i])
  {
    if |s| > 0 && IsWhitespace(s[0]) then TrimStart(s[1..]) else s
  }

  /** `s.trimEnd()`: the prefix left after dropping trailing whitespace. */
  function TrimEnd(s: string): (r: string)
    ensures |r| <= |s| && r == s[..|r|]
    ensures r == [] || !IsWhitespace(r[|r| - 1])
    ensures forall i :: |r| <= i < |s| ==> IsWhitespace(s[i])
  {
    if |s| > 0 && IsWhitespace(s[|s| - 1]) then TrimEnd(s[..|s| - 1]) else s
  }

  /** `s.trim()`. */
  function Trim(s: string): string {
    TrimEnd(TrimStart(s))
  }

  /** `!s.trim()` holds exactly for the blank strings. */
  lemma TrimEmptyIffBlank(s: string)
    ensures Trim(s) == "" <==> IsBlank(s)
  {
    var t := TrimStart(s);
    if Trim(s) == "" {
      assert t == [];
    } else {
      var r := Trim(s);
      assert r == t[..|r|];
      assert !IsWhitespace(t[0]);
      assert s[|s| - |t|] == t[0];
    }
  }

  /** Trimming never leaves whitespace at either end. */
  lemma TrimEndsClean(s: string)
    ensures var r := Trim(s); r == [] || (!IsWhitespace(r[0]) && !IsWhitespace(r[|r| - 1]))
  {
    PrefixOfCleanStart(TrimStart(s), Trim(s));
  }

  /** Trimming keeps a contiguous piece of `s`, starting after the leading whitespace. */
  lemma TrimIsSlice(s: string)
    ensures var r := Trim(s); var k := |s| - |TrimStart(s)|;
      k + |r| <= |s| && forall i :: 0 <= i < |r| ==> r[i] == s[k + i]
  {
    SliceOfSuffix(s, TrimStart(s), Trim(s));
  }

  /** A non-empty prefix of a string starts with that string's first character. */
  lemma PrefixOfCleanStart(t: string, r: string)
    requires t == [] || !IsWhitespace(t[0])
    requires |r| <= |t| && r == t[..|r|]
    requires r == [] || !IsWhitespace(r[|r| - 1])
    ensures r == [] || (!IsWhitespace(r[0]) && !IsWhitespace(r[|r| - 1]))
  {
  }

  /** A prefix `r` of a suffix `t` of `s` is a slice of `s`. */
  lemma SliceOfSuffix(s: string, t: string, r: string)
    requires |t| <= |s| && t == s[|s| - |t|..]
    requires |r| <= |t| && r == t[..|r|]
    ensures var k := |s| - |t|; k + |r| <= |s| && forall i :: 0 <= i < |r| ==> r[i] == s[k + i]
  {
  }

  /** The decimal digit for `d`. */
  function DigitChar(d: nat): (c: char)
    requires d < 10
    ensures '0' <= c <= '9'
  {
    ['0', '1', '2', '3', '4', '5', '6', '7', '8', '9'][d]
  }

  /** The value of a decimal digit character. */
  function DigitValue(c: char): nat
    requires '0' <= c <= '9'
  {
    (c as int - '0' as int) as nat
  }

  predicate IsDigits(s: string) {
    forall i :: 0 <= i < |s| ==> '0' <= s[i] <= '9'
  }

  /** `String(n)` for a non-negative integer: its decimal representation. */
  function NatToString(n: nat): (r: string)
    ensures |r| > 0 && IsDigits(r)
    ensures r[0] == '0' ==> n == 0
    decreases n
  {
    if n < 10 then [DigitChar(n)] else NatToString(n / 10) + [DigitChar(n % 10)]
  }

  /** The value of a string of decimal digits, most significant first. */
  function ParseDigits(s: string): nat
    requires IsDigits(s)
  {
    if s == [] then 0 else 10 * ParseDigits(s[..|s| - 1]) + DigitValue(s[|s| - 1])
  }

  /** Reading back the decimal representation gives the number. */
  lemma {:induction false} ParseNatToString(n: nat)
    ensures ParseDigits(NatToString(n)) == n
    decreases n
  {
    var r := NatToString(n);
    if n < 10 {
      assert DigitValue(DigitChar(n)) == n;
    } else {
      ParseNatToString(n / 10);
      assert r[..|r| - 1] == NatToString(n / 10);
      assert DigitValue(DigitChar(n % 10)) == n % 10;
    }
  }
}

=== FILE: views.dfy ===
/** The array operations the client's views are built from: `reverse`,
    `slice(-n).reverse()`, `filter`, `find` and a summing `reduce`. */
module Views {
  import opened Wrappers
  import Numbers

  /** `s.slice().reverse()`: the same items, last first. */
  function Reverse<T>(s: seq<T>): (r: seq<T>)
    ensures |r| == |s|
    ensures forall i :: 0 <= i < |s| ==> r[i] == s[|s| - 1 - i]
  {
    if s == [] then [] else Reverse(s[1..]) + [s[0]]
  }

  /** Reversing twice gives the list back. */
  lemma ReverseReverse<T>(s: seq<T>)
    ensures Reverse(Reverse(s)) == s
  {
  }

  /** Reversing keeps exactly the same items, each as often. */
  lemma ReversePermutes<T>(s: seq<T>)
    ensures multiset(Reverse(s)) == multiset(s)
  {
    if s != [] {
      ReversePermutes(s[1..]);
      assert s == [s[0]] + s[1..];
    }
  }

  /** A sequence is its prefix followed by the rest. */
  lemma SplitAt<T>(s: seq<T>, n: nat)
    requires n <= |s|
    ensures s == s[..n] + s[n..]
  {
  }

  /** `s.slice(-n).reverse()` for a positive `n`: the newest `n` items
      (all of them when there are fewer), newest first. */
  function Recent<T>(s: seq<T>, n: nat): (r: seq<T>)
    requires n > 0
    ensures |r| == Numbers.Min(n, |s|)
    ensures forall i :: 0 <= i < |r| ==> r[i] == s[|s| - 1 - i]
  {
    Reverse(s[|s| - Numbers.Min(n, |s|)..])
  }

  /** The recent view is the head of the full newest-first history. */
  lemma RecentIsHeadOfReverse<T>(s: seq<T>, n: nat)
    requires n > 0
    ensures Recent(s, n) == Reverse(s)[..Numbers.Min(n, |s|)]
  {
  }

  /** `s.filter(p)`. */
  function Filter<T>(s: seq<T>, p: T -> bool): (r: seq<T>)
    ensures |r| <= |s|
    ensures forall i :: 0 <= i < |r| ==> r[i] in s && p(r[i])
    ensures forall i :: 0 <= i < |s| && p(s[i]) ==> s[i] in r
  {
    if s == [] then []
    else if p(s[0]) then [s[0]] + Filter(s[1..], p)
    else Filter(s[1..], p)
  }

  /** `a` occurs in `b` with its items in the same relative order. */
  ghost predicate IsSubsequence<T>(a: seq<T>, b: seq<T>)
    decreases |b|
  {
    if a == [] then true
    else if b == [] then false
    else (a[0] == b[0] && IsSubsequence(a[1..], b[1..])) || IsSubsequence(a, b[1..])
  }

  /** Filtering keeps the relative order of the items it keeps. */
  lemma {:induction false} FilterKeepsOrder<T>(s: seq<T>, p: T -> bool)
    ensures IsSubsequence(Filter(s, p), s)
  {
    if s != [] {
      FilterKeepsOrder(s[1..], p);
      var f := Filter(s, p);
      if p(s[0]) {
        assert f[1..] == Filter(s[1..], p);
      } else if f != [] {
        assert f == Filter(s[1..], p);
      }
    }
  }

  /** Filtering by a predicate and by its negation splits the list: every item lands
      in exactly one of the two results, as often as it occurs. */
  lemma {:induction false} FilterPartition<T>(s: seq<T>, p: T -> bool, q: T -> bool)
    requires forall x :: q(x) == !p(x)
    ensures multiset(Filter(s, p)) + multiset(Filter(s, q)) == multiset(s)
    ensures |Filter(s, p)| + |Filter(s, q)| == |s|
  {
    if s != [] {
      FilterPartition(s[1..], p, q);
      assert s == [s[0]] + s[1..];
    }
  }

  /** `s.find(p)`: the first item satisfying `p`, if any. */
  function Find<T>(s: seq<T>, p: T -> bool): (r: Option<T>)
    ensures r.None? <==> forall i :: 0 <= i < |s| ==> !p(s[i])
    ensures r.Some? ==> exists i :: 0 <= i < |s| && s[i] == r.value && p(s[i])
                          && forall j :: 0 <= j < i ==> !p(s[j])
  {
    if s == [] then None
    else if p(s[0]) then Some(s[0])
    else
      var r := Find(s[1..], p);
      assert r.Some? ==> exists i :: 0 <= i < |s| - 1 && s[1..][i] == r.value && p(s[1..][i])
                          && forall j :: 0 <= j < i ==> !p(s[1..][j]);
      r
  }

  /** When the item at `i` is the first one satisfying `p`, `find` returns it. */
  lemma FindFirst<T>(s: seq<T>, p: T -> bool, i: nat)
    requires i < |s| && p(s[i])
    requires forall j :: 0 <= j < i ==> !p(s[j])
    ensures Find(s, p) == Some(s[i])
  {
    if i > 0 {
      FindFirst(s[1..], p, i - 1);
    }
  }

  /** `s.reduce((sum, x) => sum + f(x), 0)`. */
  function Sum<T>(s: seq<T>, f: T -> int): int {
    if s == [] then 0 else Sum(s[..|s| - 1], f) + f(s[|s| - 1])
  }

  lemma SumAppend<T>(s: seq<T>, x: T, f: T -> int)
    ensures Sum(s + [x], f) == Sum(s, f) + f(x)
  {
    assert (s + [x])[..|s|] == s;
  }

  /** A sum of terms that each lie in [lo, hi] lies in [lo * |s|, hi * |s|]. */
  lemma {:induction false} SumBounds<T>(s: seq<T>, f: T -> int, lo: int, hi: int)
    requires forall i :: 0 <= i < |s| ==> lo <= f(s[i]) <= hi
    ensures lo * |s| <= Sum(s, f) <= hi * |s|
  {
    if s != [] {
      SumBounds(s[..|s| - 1], f, lo, hi);
      assert lo * |s| == lo * (|s| - 1) + lo;
      assert hi * |s| == hi * (|s| - 1) + hi;
    }
  }

  /** A sum of non-negative terms is non-negative. */
  lemma {:induction false} SumNonNegative<T>(s: seq<T>, f: T -> int)
    requires forall i :: 0 <= i < |s| ==> 0 <= f(s[i])
    ensures 0 <= Sum(s, f)
  {
    if s != [] {
      SumNonNegative(s[..|s| - 1], f);
    }
  }

  /** The sum of a pointwise difference is the difference of the sums. */
  lemma {:induction false} SumDifference<T>(s: seq<T>, f: T -> int, g: T -> int, h: T -> int)
    requires forall x :: h(x) == f(x) - g(x)
    ensures Sum(s, h) == Sum(s, f) - Sum(s, g)
  {
    if s != [] {
      SumDifference(s[..|s| - 1], f, g, h);
    }
  }

  /** Sums agree when their terms agree on every item. */
  lemma {:induction false} SumCongruent<T>(s: seq<T>, f: T -> int, g: T -> int)
    requires forall i :: 0 <= i < |s| ==> f(s[i]) == g(s[i])
    ensures Sum(s, f) == Sum(s, g)
  {
    if s != [] {
      SumCongruent(s[..|s| - 1], f, g);
    }
  }
}

=== FILE: wrappers.dfy ===
/** Optional values and the shape every event handler of the client returns. */
module Wrappers {

  /** A value that may be absent: `undefined`/`null` in the client, `Option` in the service interface. */
  datatype Option<+T> = None | Some(value: T) {

    /** The value, or `default` when absent. */
    function GetOr(default: T): T {
      match this
      case Some(v) => v
      case None => default
    }
  }

  /** The effect of one handler invocation: the request it sends to the remote
      service (None when a guard refused it) and the component state afterwards. */
  datatype Handled<+R, +S> = Handled(request: Option<R>, state: S)
}
